=== FILE: README.md ===
# Univ2 AMM front-end: a Dafny model of its page logic

This project models the logic inside the Next.js front-end of a Uniswap-V2-style AMM
on the MOCA chain. It covers the swap page, the create-pool page, the add-liquidity
page, the pool list, the token-metadata lookup and the `TOKENS` table. The front-end
does four kinds of work, and each is modelled by its own means:

- **Integer rules** on BigInt wei amounts, modelled in `AmmMath`:
  - the constant-product quote with the 0.3% fee written as 997/1000;
  - the slippage floor in basis points;
  - the reserve-ratio quote for a second deposit.

  BigInt `/` truncates toward zero, and `TDiv` models that explicitly.
- **Page state** as immutable records with transition functions:
  - token selection, which keeps the two sides' symbols apart;
  - the flip button;
  - the notification list (`Notices`);
  - the busy flag.
- **Call plans.** A page action is a list of steps, each of which pushes a note, sends
  and awaits a transaction, or throws. `Plans.RunPlan` runs a plan with the pages'
  semantics: every transaction is awaited before the next line runs, a failure skips
  everything after it, and nothing already sent is undone. One parameter (`failAt`)
  says which sent transaction is the first to fail.
- **Everything outside the pages** enters as parameters:
  - the ethers helpers (`Boundary.Ethers`), where a call that throws is `None`;
  - the contract view calls (`Boundary.Chain`);
  - the deployed contract addresses (`Tokens.Contracts`);
  - the wallet session (`Plans.Session`).

The model keeps the code's own behaviour where it departs from what the page text
suggests. Each of these is stated and proved:

- The quote has no empty-reserve guard. Any positive trade against an empty input
  reserve is quoted the whole output reserve (`AmmMath.EmptyReserveQuotesEverything`).
- The swap branch of the primary button sends no swap. Without a pending approval it
  sends nothing and only pushes "Swap Executed" (`Swap.SwapExecutedNote`).
- Nothing ever sets `needsApproval`, so the approval branch cannot be reached from the
  rendered page (`Swap.ApprovalFlag`).
- The router the swap guard checks is never cleared, but the wallet client can go
  away. A wrap, unwrap or approval then throws at `walletClient!`, as it does when
  `getSigner()` rejects, and ends in "Transaction failed" with nothing sent
  (`Swap.NoSignerFails`).
- The add-liquidity page does not resolve native MOCA to WMOCA. It passes the literal
  `"native"` sentinel to the factory and the router, and it approves nothing
  (`AddLiquidity.AddPassesSentinel`).
- Only the swap and create-pool pages keep notes. The add-liquidity page has no
  `catch`, so a failure there leaves only the cleared busy flag behind.

Some modelled handlers are never reached from the rendered pages. Neither the swap page
nor the create-pool page renders a token selector or a search box, so `Swap.SelectToken`,
`Swap.SearchToken` and `CreatePool.SelectToken` model handlers that nothing calls. The
create-pool page also renders no notes, so nothing there can close one.

## Model

| member | source | states |
|---|---|---|
| Tokens.Table | app/lib/tokens.ts:3-7 | exactly three entries in the order MOCA, IUSDC, WMOCA; only MOCA is native and its address is the sentinel "native"; IUSDC and WMOCA sit at the deployed addresses |
| Tokens.TableSymbolsDistinct | app/lib/tokens.ts:4-6 | the three symbols are pairwise distinct |
| Tokens.NativeResolvesToWrappedEntry | app/lib/tokens.ts:4-6 | only the first entry is native, it resolves to the WMOCA entry's address, and every other entry resolves to its own address |
| Tokens.Resolve | app/swap/page.tsx:77-78 | a native side is replaced by the WMOCA address and any other side keeps its address |
| Text.Lower | app/swap/page.tsx:85 | lower-casing keeps the length and lower-cases each character on its own |
| Notices.Push | app/swap/page.tsx:39-41 | appends exactly one note of the given kind and message at the end, keeps the earlier notes, and gives it an id that no note on the board carries |
| Notices.Close | app/swap/page.tsx:42 | a note is kept exactly when its id differs from the closed id; distinct ids stay distinct |
| Notices.CloseIdempotent | app/liquidity/create/page.tsx:33 | closing the same id twice is the same as closing it once |
| Notices.WithoutAppend | app/liquidity/create/page.tsx:33 | filtering distributes over concatenation, so the remaining notes keep their order |
| Notices.PushThenClose | app/liquidity/create/page.tsx:32-33 | closing the note just pushed gives back the earlier notes |
| Notices.PushCount | app/swap/page.tsx:39-41 | a push adds one to the count of its own kind and leaves the other kinds alone |
| Plans.RunPlan | app/liquidity/create/page.tsx:63-93 | only the plan's transactions are sent, in plan order; the run completes exactly when the plan has no throw and no sent transaction fails; a completed run sends all of them; when transaction k fails in a plan without a throw, exactly the first k + 1 transactions were sent and none is undone; the failing transaction is the last one sent; notes are only appended; a plan without error notes adds none and a plan without notes adds no note |
| Plans.PlanAppend | app/liquidity/create/page.tsx:63-89 | a plan made of two parts sends the calls of the first part, then those of the second; it throws if either part throws |
| Plans.SendAllCalls | app/liquidity/create/page.tsx:84-86 | a run of awaited sends sends exactly those calls, never throws and pushes no note |
| Plans.RunFromLastNote | app/liquidity/create/page.tsx:89 | a completed plan that ends with a note leaves that note last on the board |
| Plans.RunFromSendsUpToFailure | app/liquidity/create/page.tsx:63-93 | when the transaction in position k fails, the log holds every transaction up to and including it and nothing after it |
| AmmMath.TDiv | app/swap/page.tsx:89 | BigInt division by a positive divisor of a non-negative dividend is the floor quotient q, with q*d <= n < (q+1)*d |
| AmmMath.TDivNegate | app/swap/page.tsx:89 | truncating division is odd in the dividend, unlike Dafny's Euclidean division |
| AmmMath.AmountOut | app/swap/page.tsx:87-89 | the quote is missing exactly when the denominator resIn*1000 + a*997 is zero, and always present when resIn > 0 and a >= 0 |
| AmmMath.AmountOutIsFloor | app/swap/page.tsx:88-89 | for a non-negative trade the output is the floor of a*997*resOut / (resIn*1000 + a*997) |
| AmmMath.AmountOutBounds | app/swap/page.tsx:89 | with input liquidity the output lies between 0 and resOut, is strictly below a positive resOut, and is 0 for a zero trade |
| AmmMath.AmountOutMonotone | app/swap/page.tsx:87-89 | a larger trade is never quoted less |
| AmmMath.EmptyReserveQuotesEverything | app/swap/page.tsx:89 | with no reserve guard, a positive trade against an empty input reserve is quoted the whole output reserve |
| AmmMath.SwapQuote | app/swap/page.tsx:87-93 | the quote pair is missing exactly when the division throws, which includes resIn = 0 and a = 0; its amountOut is the constant-product output and its minOut the slippage floor of that |
| AmmMath.MinOut | app/swap/page.tsx:90 | for a non-negative output and s <= 10000, minOut is the floor quotient r with r*10000 <= amountOut*(10000 - s) < (r + 1)*10000 |
| AmmMath.MinOutIsFloor | app/swap/page.tsx:90 | minOut is the floor of amountOut*(10000 - s)/10000 |
| AmmMath.MinOutBounds | app/swap/page.tsx:90 | for 0 <= s <= 10000 the floor lies between 0 and amountOut, and equals amountOut when s = 0 |
| AmmMath.RatioQuote | app/liquidity/add/page.tsx:37 | for a non-negative first amount the proposal b is non-negative and b*resA <= a*resB < (b+1)*resA |
| AmmMath.RatioMonotone | app/liquidity/add/page.tsx:37 | the ratio proposal grows with the first amount and is 0 for a zero deposit |
| TokenMetadata.ReadText | app/lib/fetchTokenMetadata.ts:30-43 | a read that throws gives the fallback; a bytes-like result is decoded, and a decode that throws gives the fallback; any other result passes through |
| TokenMetadata.OrDefault | app/lib/fetchTokenMetadata.ts:54-55 | an empty string gives the fallback and a non-empty one is kept |
| TokenMetadata.FetchTokenMetadata | app/lib/fetchTokenMetadata.ts:4-62 | a non-address gives null; a result exists exactly for an address that normalises; the address is normalised and isNative is false; name and symbol are never empty, and a failed or empty read gives "Unknown" and "???"; decimals default to 18 |
| TokenMetadata.NonAddressIgnoresReads | app/lib/fetchTokenMetadata.ts:6 | for a non-address the read outcomes cannot change the null answer |
| TokenMetadata.EmptyTextFallsBack | app/lib/fetchTokenMetadata.ts:30-55 | an empty name ends as "Unknown" and an empty symbol as "???", as failed reads do |
| TokenMetadata.Bytes32SymbolDecoded | app/lib/fetchTokenMetadata.ts:38-43 | a bytes32 symbol is decoded, and a decode that yields nothing or throws gives "???" |
| Swap.Initial | app/swap/page.tsx:22-33 | the page starts on MOCA to IUSDC with empty fields, 0.5% slippage, no router, no search result, no open selector and no notes |
| Swap.IsWrap | app/swap/page.tsx:35 | MOCA in and WMOCA out by symbol; a wrap never has one symbol on both sides |
| Swap.IsUnwrap | app/swap/page.tsx:36 | WMOCA in and MOCA out by symbol; an unwrap never has one symbol on both sides and is never a wrap |
| Swap.IsAmmSwap | app/swap/page.tsx:35-37 | every pair that neither wraps nor unwraps goes through the pool, so a pair with one symbol on both sides is quoted by the AMM |
| Swap.RouteIsExclusive | app/swap/page.tsx:35-37 | exactly one of wrap, unwrap and AMM swap holds, and reversing a wrap gives an unwrap |
| Swap.DefaultsAreAmmSwap | app/swap/page.tsx:23-37 | the default pair has distinct symbols and takes the AMM route; MOCA to WMOCA wraps and the reverse unwraps |
| Swap.Orient | app/swap/page.tsx:85 | the reserves are (r0, r1) when the input address matches token0 case-insensitively, and (r1, r0) otherwise |
| Swap.PairQuery | app/swap/page.tsx:77-78 | native sides are resolved to WMOCA before the factory lookup |
| Swap.GetAmountOut | app/swap/page.tsx:73-94 | no quote for a wrap or unwrap, an empty or non-numeric amount, a missing or zero pair, or an unparsable amount; a quote implies that every read succeeded |
| Swap.QuoteUsesOrientedReserves | app/swap/page.tsx:79-92 | with every read answered, the quote is the constant-product quote on the reserves oriented against token0 |
| Swap.Estimate | app/swap/page.tsx:96-100 | an empty amount gives an empty estimate; wrap and unwrap echo the amount; the AMM route shows the formatted quote, or "" when there is none |
| Swap.WrapEstimateIgnoresChain | app/swap/page.tsx:98 | the wrap and unwrap estimate does not depend on any chain read |
| Swap.SelectToken | app/swap/page.tsx:62-71 | the chosen token goes to the side being selected, and a side holding the same symbol takes the replaced token; distinct symbols stay distinct; amount, estimate and selector are reset and every other field is unchanged |
| Swap.Flip | app/swap/page.tsx:140 | the two tokens trade places and every other field, the amount included, is unchanged |
| Swap.FlipProperties | app/swap/page.tsx:140 | flipping twice restores the page, keeps the symbols distinct, and turns a wrap into an unwrap |
| Swap.SearchToken | app/swap/page.tsx:56-60 | a found token becomes the search result; a miss pushes the "Invalid address or token not found." error; no other field changes |
| Swap.SetupRouter | app/swap/page.tsx:46-54 | the router exists once a wallet client has yielded a signer, and it is never cleared |
| Swap.PrimaryPlan | app/swap/page.tsx:105-122 | without a wallet client or a signer, the wrap, unwrap and approval branches throw before sending anything; the action sends at most one transaction and never an error note; wrap deposits and unwrap withdraws the parsed amount; the AMM route can only approve, and a missing quote throws |
| Swap.OnPrimaryAction | app/swap/page.tsx:102-125 | without an account or router, one info note, nothing sent and no other field changed; otherwise busy ends false, notes are only appended, and nothing but busy, needsApproval and the notes changes |
| Swap.PrimaryActionNotes | app/swap/page.tsx:105-123 | any failure after the guard, the "No Liquidity" throw included, adds exactly one error note, "Transaction failed", last; a success adds no error note |
| Swap.PrimaryActionSends | app/swap/page.tsx:107-121 | the AMM route never sends a swap; a missing quote sends nothing and fails; the approval approves exactly the entered amount to the router; wrap and unwrap send deposit and withdraw |
| Swap.ApprovalFlag | app/swap/page.tsx:114-117 | nothing sets needsApproval; a successful approval pushes no note and clears the flag |
| Swap.SwapExecutedNote | app/swap/page.tsx:110-120 | on the AMM route with a quote and no pending approval, the action settles, sends nothing, and appends exactly one note, the "Swap Executed" success |
| Swap.NoSignerFails | app/swap/page.tsx:102-116 | with the router still set but no wallet client or a rejected getSigner, a wrap, unwrap or approval sends nothing, fails, and appends exactly one note, "Transaction failed" |
| Swap.WrapSends | app/swap/page.tsx:106-110 | with a signer, a parsed amount w and a confirming transaction, a wrap sends exactly deposit(w), an unwrap exactly withdraw(w), and the one note added is "Transaction successful" |
| Swap.ApprovalSends | app/swap/page.tsx:111-117 | with a quote, a signer, a parsed amount w and a confirming transaction, a pending approval sends exactly approve(ROUTER, w), adds no note and clears needsApproval |
| CreatePool.Initial | app/liquidity/create/page.tsx:22-30 | the page starts on MOCA and IUSDC with empty amounts and no notes |
| CreatePool.SelectToken | app/liquidity/create/page.tsx:41-50 | the chosen token goes to the selected side, and a side holding the same symbol takes the replaced token; symbols stay distinct and amounts are kept |
| CreatePool.SelectionAgreesWithSwap | app/liquidity/create/page.tsx:41-50 | the create page picks tokens by the same rule as the swap page |
| CreatePool.TokenLeg | app/liquidity/create/page.tsx:74-75 | with a native side, the ERC-20 leg is the other token's resolved address and amount |
| CreatePool.ProvisionCalls | app/liquidity/create/page.tsx:72-87 | two funding transactions with a native side, three without |
| CreatePool.NativeProvision | app/liquidity/create/page.tsx:73-80 | exactly one approve, on the non-native token for its amount; the native amount travels only as the value of addLiquidityMOCA to the account |
| CreatePool.Erc20Provision | app/liquidity/create/page.tsx:81-86 | approve A for amtA, then B for amtB, then addLiquidity of both to the account, in that order |
| CreatePool.CreatePoolPlan | app/liquidity/create/page.tsx:55-89 | the plan throws exactly when the signer is missing, the pair lookup fails or an amount does not parse; no error note is planned; a plan without a throw ends with the success note |
| CreatePool.CreatePoolCalls | app/liquidity/create/page.tsx:63-87 | createPair is sent, first, exactly when the factory reports the zero address; the funding transactions follow once both amounts parse |
| CreatePool.CreatePairAnnounced | app/liquidity/create/page.tsx:63-67 | createPair is preceded by the "Creating new pair contract..." note, and no later call creates a pair |
| CreatePool.CallsUseResolvedAddresses | app/liquidity/create/page.tsx:60-86 | every token a transaction names is one of the two resolved addresses, the router is the only spender, and nothing is wrapped or unwrapped |
| CreatePool.NoSentinelSent | app/liquidity/create/page.tsx:60-61 | when neither WMOCA nor an ERC-20 side is itself the sentinel, the "native" sentinel is never sent to a contract |
| CreatePool.OnCreatePool | app/liquidity/create/page.tsx:52-94 | without an account or wallet client, one info note, no call and busy untouched; otherwise busy ends false, a failure adds exactly one error note and stays on the page, and a success navigates to "/liquidity" |
| CreatePool.CreatePoolOutcome | app/liquidity/create/page.tsx:63-93 | the sent transactions are a prefix of the plan's; when transaction k fails, exactly the first k + 1 were sent, so none is undone; the failing one is the last sent; success sends all of them and leaves the success note last |
| CreatePool.CreatePoolSucceeds | app/liquidity/create/page.tsx:55-90 | with an account, a signer, an answering pair lookup, two parsing amounts and confirming transactions, the action settles, sends all of its transactions and navigates to "/liquidity" |
| AddLiquidity.Initial | app/liquidity/add/page.tsx:14-20 | the page is fixed to the first two table entries with empty amounts |
| AddLiquidity.RatioWei | app/liquidity/add/page.tsx:24-40 | no proposal for an empty or non-numeric amount, a failed or zero pair, or an unparsable amount; a proposal implies a positive side-A reserve |
| AddLiquidity.FetchRatio | app/liquidity/add/page.tsx:24-42 | only amountB changes, and only when there is a proposal, to its formatted value |
| AddLiquidity.RatioFromReserves | app/liquidity/add/page.tsx:31-38 | with every read answered, an empty side-A reserve changes nothing, and otherwise amountB is the floor of amountA*resB/resA on reserves oriented against token0 |
| AddLiquidity.RatioMonotoneOnPage | app/liquidity/add/page.tsx:37 | on the same pool a larger first amount never proposes a smaller second amount |
| AddLiquidity.OnAddLiquidity | app/liquidity/add/page.tsx:44-56 | without a wallet client nothing happens; otherwise busy ends false and at most one addLiquidity of the two parsed amounts to the account is sent; it settles exactly when a signer exists, both amounts parse and the transaction confirms |
| AddLiquidity.AddPassesSentinel | app/liquidity/add/page.tsx:19-54 | on the rendered page the add names the "native" sentinel and IUSDC and approves nothing |
| PoolList.FindIndex | app/liquidity/page.tsx:33-34 | the first table entry whose address matches case-insensitively, or none when no entry matches |
| PoolList.SymbolFor | app/liquidity/page.tsx:33-34 | the symbol is never empty; a token missing from the table shows as "UNK" |
| PoolList.TableSymbols | app/liquidity/page.tsx:33-34 | against the real table, the IUSDC and WMOCA addresses in any case get their symbols and anything else gets "UNK" |
| PoolList.FeeLabel | app/liquidity/page.tsx:43 | the label is the whole part of fee/100, a point, two digits and "%" |
| PoolList.FeeLabelRoundTrip | app/liquidity/page.tsx:43 | reading the label back gives the fee in basis points |
| PoolList.FeeLabelInjective | app/liquidity/page.tsx:43 | different fees never share a label, and 30 gives "0.30%" |
| PoolList.ReadRow | app/liquidity/page.tsx:29-44 | a row exists exactly when all five reads succeed; key and pair are the pair address, aSym comes from token0, bSym from token1, r0 and r1 are the formatted reserves in that order, and the fee is its label |
| PoolList.LoadPools | app/liquidity/page.tsx:21-50 | loading ends false; with every read answered the list is one row per pair index in index order; any failed read keeps the old list |

## Left out

- Presentation is not modelled: JSX, styling, the token selector and header components, and the landing page. They hold no logic of their own.
- The per-pair page (`app/liquidity/[pairAddress]/page.tsx`) is outside this model. It reads the LP balance and pending fees and sends `claimFees`.
- Wallet wiring is not modelled. wagmi and RainbowKit configuration, the RPC proxy route and the build config are plumbing. The session enters as `Plans.Session`.
- The notification box's 5-second expiry timer is left out, because it is timing. Only append and remove are modelled.
- The ethers helpers are abstract fields of `Boundary.Ethers`: `parseEther`, `formatEther`, `isAddress`, `getAddress`, `isBytesLike`, `decodeBytes32String` and `Number`/`isNaN`. These are foreign library calls.
- ABI encoding and the ABI JSON files are not part of this model.
- The contract address file is not part of this model. Its addresses are the `Tokens.Contracts` parameter.
- Floating-point display is an abstract function: `parseFloat(formatEther(x)).toFixed(6)` for the estimate and `.toFixed(2)` for reserves.
- Slippage is integer basis points. The page's `BigInt(parseFloat(slippage) * 100)` is floating point, and since nothing calls `setSlippage` the value is always 50.
- React effect scheduling is not modelled. This covers stale quote responses and the ordering of state updates inside one handler. The code has no protection against these anyway.
- Unhandled promise rejections are not modelled: the add page's ratio effect and `onAddLiquidity` have no catch. Only their effect on page state is modelled, which is none beyond busy.
- The router and signer objects are reduced to booleans: `routerReady`, `walletClient` and `signerOk`. Errors while setting up the router are only logged.
- Text.Lower: models `toLowerCase` on ASCII letters only, because addresses are hexadecimal; JavaScript lower-cases the whole Unicode range.
- PoolList.FeeLabel: is exact for every fee, because `Number(feeRaw) / 100` followed by `toFixed(2)` agrees with it only while the fee fits a double's integer range and stays below the exponent-notation threshold.
- PoolList.LoadPools: takes the pair count as a natural number. The source's `Number(allPairsLength)` loses precision beyond 2^53.
- AddLiquidity.Initial: assumes the missing import. The add-liquidity page reads `TOKENS` without importing it, so as written it fails to build and would throw a ReferenceError at render. The model reads the name as the token table.

=== FILE: add_liquidity.dfy ===
/**
 * The add-liquidity page: the effect that proposes the second amount from the pool's
 * reserve ratio, and `onAddLiquidity`, which sends one `addLiquidity` with the two
 * entered amounts. Its two tokens are fixed to the first two table entries.
 */
module AddLiquidity {
  import opened Wrappers
  import opened Text
  import opened Tokens
  import opened Boundary
  import opened Notices
  import opened Plans
  import opened AmmMath
  import Swap

  /** The page has no notification list and no token picker. */
  datatype AddPage = AddPage(tokenA: TokenMeta, tokenB: TokenMeta, amountA: string, amountB: string, busy: bool)

  /** The page as first rendered: `TOKENS[0]` and `TOKENS[1]` (MOCA and IUSDC), empty amounts. */
  function Initial(c: Contracts): (p: AddPage)
    ensures p.tokenA == Table(c)[0] && p.tokenB == Table(c)[1]
    ensures p.amountA == "" && p.amountB == "" && !p.busy
  {
    AddPage(Table(c)[0], Table(c)[1], "", "", false)
  }

  /**
   * The amount of token B the ratio effect proposes, in wei, or `None` where it leaves
   * `amountB` alone: an empty or non-numeric amount, a read that throws, no pair, an
   * empty reserve on side A, or an amount `parseEther` rejects. The token addresses go
   * to the factory as they are: the native sentinel is not resolved to WMOCA here.
   */
  function RatioWei(p: AddPage, chain: Chain, lib: Ethers): (r: Option<int>)
    ensures p.amountA == "" || !lib.isNumeric(p.amountA) ==> r.None?
    ensures chain.getPair(p.tokenA.address, p.tokenB.address) in {None, Some(ZERO_ADDRESS)} ==> r.None?
    ensures lib.parseEther(p.amountA).None? ==> r.None?
    ensures r.Some? ==>
              var pair := chain.getPair(p.tokenA.address, p.tokenB.address).value;
              chain.reserves(pair).Some? && chain.token0(pair).Some? &&
              Swap.Orient(p.tokenA.address, chain.token0(pair).value, chain.reserves(pair).value).0 > 0
  {
    if p.amountA == "" || !lib.isNumeric(p.amountA) then None
    else
      match chain.getPair(p.tokenA.address, p.tokenB.address)
      case None => None
      case Some(pair) =>
        if pair == ZERO_ADDRESS then None
        else
          match (chain.reserves(pair), chain.token0(pair))
          case (Some(res), Some(t0)) =>
            var (resA, resB) := Swap.Orient(p.tokenA.address, t0, res);
            if resA > 0 then
              match lib.parseEther(p.amountA)
              case Some(a) => Some(RatioQuote(a, resA, resB))
              case None => None
            else None
          case _ => None
  }

  /** `fetchRatio`: sets `amountB` to the formatted proposal when there is one; nothing else changes. */
  function FetchRatio(p: AddPage, chain: Chain, lib: Ethers): (q: AddPage)
    ensures q == p.(amountB := q.amountB)
    ensures RatioWei(p, chain, lib).None? ==> q == p
    ensures RatioWei(p, chain, lib).Some? ==> q.amountB == lib.formatEther(RatioWei(p, chain, lib).value)
  {
    match RatioWei(p, chain, lib)
    case None => p
    case Some(b) => p.(amountB := lib.formatEther(b))
  }

  /**
   * With every read answered, the proposal is the floor of `amountA*resB/resA` on the
   * reserves oriented by a case-insensitive match of token A against `token0`, and an
   * empty side-A reserve leaves `amountB` unchanged.
   */
  lemma RatioFromReserves(p: AddPage, chain: Chain, lib: Ethers, pair: Address, res: Reserves, t0: Address, a: nat)
    requires p.amountA != "" && lib.isNumeric(p.amountA) && lib.parseEther(p.amountA) == Some(a)
    requires chain.getPair(p.tokenA.address, p.tokenB.address) == Some(pair) && pair != ZERO_ADDRESS
    requires chain.reserves(pair) == Some(res) && chain.token0(pair) == Some(t0)
    ensures var resA := if SameAddress(p.tokenA.address, t0) then res.r0 else res.r1;
            var resB := if SameAddress(p.tokenA.address, t0) then res.r1 else res.r0;
            (resA == 0 ==> FetchRatio(p, chain, lib) == p) &&
            (resA > 0 ==>
               && RatioWei(p, chain, lib).Some?
               && var b := RatioWei(p, chain, lib).value;
                  && FetchRatio(p, chain, lib).amountB == lib.formatEther(b)
                  && 0 <= b && b * resA <= a * resB < (b + 1) * resA)
  {
  }

  /** A larger first amount never proposes a smaller second amount on the same pool. */
  lemma RatioMonotoneOnPage(p: AddPage, chain: Chain, lib: Ethers, amountA': string)
    requires RatioWei(p, chain, lib).Some?
    requires amountA' != "" && lib.isNumeric(amountA')
    requires lib.parseEther(amountA').Some? && 0 <= lib.parseEther(p.amountA).value <= lib.parseEther(amountA').value
    ensures RatioWei(p.(amountA := amountA'), chain, lib).Some?
    ensures RatioWei(p, chain, lib).value <= RatioWei(p.(amountA := amountA'), chain, lib).value
  {
    var pair := chain.getPair(p.tokenA.address, p.tokenB.address).value;
    var (resA, resB) := Swap.Orient(p.tokenA.address, chain.token0(pair).value, chain.reserves(pair).value);
    RatioMonotone(lib.parseEther(p.amountA).value, lib.parseEther(amountA').value, resA, resB);
  }

  /**
   * `onAddLiquidity`: nothing without a wallet client; otherwise one `addLiquidity` of
   * the two parsed amounts to the connected account. There is no approval, no note and
   * no catch: a failure leaves only the cleared busy flag behind.
   */
  function OnAddLiquidity(p: AddPage, lib: Ethers, s: Session): (e: Effect<AddPage>)
    ensures !s.walletClient ==> e == Effect(p, [], false, false, None)
    ensures s.walletClient ==> e.started && e.page == p.(busy := false)
    ensures |e.sent| <= 1
    ensures forall i | 0 <= i < |e.sent| ::
              e.sent[i] == AddLiquidity(p.tokenA.address, p.tokenB.address,
                                        lib.parseEther(p.amountA).GetOr(0), lib.parseEther(p.amountB).GetOr(0), s.account)
    ensures e.settled <==>
              && s.walletClient && s.signerOk
              && lib.parseEther(p.amountA).Some? && lib.parseEther(p.amountB).Some?
              && s.failAt != Some(0)
    ensures e.settled ==> |e.sent| == 1
    ensures e.navigate.None?
  {
    if !s.walletClient then Effect(p, [], false, false, None)
    else
      var plan :=
        if !s.signerOk then [Abort]
        else
          match (lib.parseEther(p.amountA), lib.parseEther(p.amountB))
          case (Some(a), Some(b)) => [Send(AddLiquidity(p.tokenA.address, p.tokenB.address, a, b, s.account))]
          case _ => [Abort];
      assert [Abort][0].Abort?;
      var run := RunPlan(plan, s.failAt, EMPTY);
      Effect(p.(busy := false), run.sent, true, run.completed, None)
  }

  /**
   * On the page as rendered, token A is native MOCA and is passed as the literal
   * `"native"` sentinel: a settled add names no WMOCA address and approves nothing.
   */
  lemma AddPassesSentinel(c: Contracts, amountA: string, amountB: string, lib: Ethers, s: Session)
    ensures var p := Initial(c).(amountA := amountA, amountB := amountB);
            var e := OnAddLiquidity(p, lib, s);
            forall i | 0 <= i < |e.sent| ::
              !e.sent[i].Approve? && e.sent[i].AddLiquidity? &&
              e.sent[i].tokenA == NATIVE && e.sent[i].tokenB == c.iusdc
  {
  }
}

=== FILE: amm_math.dfy ===
/**
 * The integer formulas the pages evaluate on BigInt wei amounts: the constant-product
 * output with the 0.3% fee written as 997/1000, the slippage floor, and the
 * reserve-ratio quote for a second deposit.
 */
module AmmMath {
  import opened Wrappers

  /** BigInt `/`: the quotient truncated toward zero (Dafny's own `/` is Euclidean). */
  function TDiv(n: int, d: int): (q: int)
    requires d != 0
    ensures n >= 0 && d > 0 ==> q == n / d
    ensures n >= 0 && d > 0 ==> q * d <= n < (q + 1) * d
  {
    if n >= 0 then (if d > 0 then n / d else -(n / -d))
    else (if d > 0 then -((-n) / d) else (-n) / (-d))
  }

  /** Truncation toward zero is odd in the dividend, unlike floor division. */
  lemma TDivNegate(n: int, d: int)
    requires d != 0
    ensures TDiv(-n, d) == -TDiv(n, d)
  {
    if n == 0 {
      assert TDiv(0, d) == 0;
    } else if n > 0 {
      if d > 0 {
        assert TDiv(-n, d) == -(n / d);
      } else {
        assert TDiv(-n, d) == n / -d;
      }
    } else {
      if d > 0 {
        assert TDiv(n, d) == -((-n) / d);
      } else {
        assert TDiv(n, d) == (-n) / -d;
      }
    }
  }

  /** Basis-point denominator. */
  const BPS: int := 10000

  /** The slippage the swap page quotes with: its `"0.5"` percent, which nothing changes. */
  const DEFAULT_SLIPPAGE_BPS: int := 50

  datatype Quote = Quote(amountOut: int, minOut: int)

  /**
   * `a*997*resOut / (resIn*1000 + a*997)`: the constant-product output after the
   * 0.3% fee. A zero divisor is the BigInt RangeError, here `None`.
   */
  function AmountOut(a: int, resIn: nat, resOut: nat): (r: Option<int>)
    ensures r.None? <==> resIn * 1000 + a * 997 == 0
    ensures resIn > 0 && a >= 0 ==> r.Some?
  {
    var withFee := a * 997;
    var den := resIn * 1000 + withFee;
    if den == 0 then None else Some(TDiv(withFee * resOut, den))
  }

  /** `amountOut*(10000 - s) / 10000`: the least output accepted under `s` basis points of slippage. */
  function MinOut(amountOut: int, s: int): (r: int)
    ensures amountOut >= 0 && s <= BPS ==> r * BPS <= amountOut * (BPS - s) < (r + 1) * BPS
  {
    var n := amountOut * (BPS - s);
    assert amountOut >= 0 && s <= BPS ==> n >= 0 by {
      if amountOut >= 0 && s <= BPS { MulNonneg(amountOut, BPS - s); }
    }
    TDiv(n, BPS)
  }

  /** Both amounts the swap page computes; `None` where the division throws. */
  function SwapQuote(a: int, resIn: nat, resOut: nat, s: int): (r: Option<Quote>)
    ensures r.None? <==> resIn * 1000 + a * 997 == 0
    ensures resIn == 0 && a == 0 ==> r.None?
    ensures r.Some? ==> AmountOut(a, resIn, resOut) == Some(r.value.amountOut)
    ensures r.Some? ==> r.value.minOut == MinOut(r.value.amountOut, s)
  {
    match AmountOut(a, resIn, resOut)
    case None => None
    case Some(out) => Some(Quote(out, MinOut(out, s)))
  }

  lemma MulMono(x: int, y: int, k: int)
    requires k >= 0
    ensures x <= y ==> x * k <= y * k
  {
    assert (y - x) * k == y * k - x * k;
  }

  lemma MulStrictMono(x: int, y: int, k: int)
    requires k > 0
    ensures x < y ==> x * k < y * k
  {
    assert (y - x) * k == y * k - x * k;
  }

  lemma MulCancel(x: int, y: int, k: int)
    requires k > 0 && x * k <= y * k
    ensures x <= y
  {
    MulStrictMono(y, x, k);
  }

  lemma MulStrictCancel(x: int, y: int, k: int)
    requires k > 0 && x * k < y * k
    ensures x < y
  {
    MulMono(y, x, k);
  }

  lemma MulNonneg(x: int, y: int)
    requires x >= 0 && y >= 0
    ensures x * y >= 0
  {
    MulMono(0, x, y);
  }

  /** The floor quotient is the largest q with q*d <= n. */
  lemma DivLowerBound(q: int, n: nat, d: nat)
    requires d > 0 && q * d <= n
    ensures q <= n / d
  {
    var m := n / d;
    assert n == m * d + n % d;
    assert (m + 1) * d == m * d + d;
    MulStrictCancel(q, m + 1, d);
  }

  lemma DivStrictUpper(n: nat, d: nat, k: int)
    requires d > 0 && n < k * d
    ensures n / d < k
  {
    var m := n / d;
    assert m * d <= n by { assert n == m * d + n % d; }
    MulStrictCancel(m, k, d);
  }

  lemma DivExact(k: nat, d: nat)
    requires d > 0
    ensures k * d / d == k
  {
    MulNonneg(k, d);
    DivLowerBound(k, k * d, d);
    assert k * d < (k + 1) * d;
    DivStrictUpper(k * d, d, k + 1);
  }

  /** Floor quotients compare like the fractions they round: n1/d1 <= n2/d2 gives q1 <= q2. */
  lemma DivMonotoneCross(n1: nat, d1: nat, n2: nat, d2: nat)
    requires d1 > 0 && d2 > 0
    requires n1 * d2 <= n2 * d1
    ensures n1 / d1 <= n2 / d2
  {
    var q1 := n1 / d1;
    var x := q1 * d1;
    assert x <= n1 by { assert n1 == x + n1 % d1; }
    MulMono(x, n1, d2);
    assert q1 * d2 * d1 == x * d2;
    MulCancel(q1 * d2, n2, d1);
    DivLowerBound(q1, n2, d2);
  }

  /** For a non-negative trade the output is the floor of the constant-product formula after the fee. */
  lemma AmountOutIsFloor(a: nat, resIn: nat, resOut: nat)
    requires resIn * 1000 + a * 997 > 0
    ensures var r := AmountOut(a, resIn, resOut);
            var den := resIn * 1000 + a * 997;
            r.Some? && r.value >= 0 &&
            r.value * den <= a * 997 * resOut < (r.value + 1) * den
  {
    MulNonneg(a * 997, resOut);
    TDivFloor(a * 997 * resOut, resIn * 1000 + a * 997);
  }

  lemma TDivFloor(n: int, d: int)
    requires n >= 0 && d > 0
    ensures 0 <= TDiv(n, d) && TDiv(n, d) * d <= n < (TDiv(n, d) + 1) * d
  {
    DivLowerBound(0, n, d);
  }

  /** For a non-negative output the slippage floor is the floor of out*(10000 - s)/10000. */
  lemma MinOutIsFloor(out: nat, s: int)
    requires s <= BPS
    ensures MinOut(out, s) * BPS <= out * (BPS - s) < (MinOut(out, s) + 1) * BPS
  {
    MulNonneg(out, BPS - s);
  }

  /** With input liquidity the pool is never drained, and an empty trade gets nothing. */
  lemma AmountOutBounds(a: nat, resIn: nat, resOut: nat)
    requires resIn > 0
    ensures AmountOut(a, resIn, resOut).Some?
    ensures 0 <= AmountOut(a, resIn, resOut).value <= resOut
    ensures resOut > 0 ==> AmountOut(a, resIn, resOut).value < resOut
    ensures a == 0 ==> AmountOut(a, resIn, resOut).value == 0
  {
    var w := a * 997;
    var n := w * resOut;
    MulNonneg(w, resOut);
    QuotientBelowReserve(n, w, resIn * 1000, resOut);
    var den := resIn * 1000 + w;
    var q := n / den;
    assert AmountOut(a, resIn, resOut) == Some(q);
    assert 0 <= q by { DivLowerBound(0, n, den); }
    if a == 0 {
      assert n == 0;
      assert q == 0;
    }
  }

  lemma QuotientBelowReserve(n: nat, w: nat, i: nat, r: nat)
    requires n == w * r && i > 0
    ensures n / (i + w) <= r
    ensures r > 0 ==> n / (i + w) < r
  {
    if r > 0 {
      OutputBelowReserve(n, w, i, r);
      DivStrictUpper(n, i + w, r);
    } else {
      assert n == 0;
    }
  }

  /** The trade's share w*R is strictly below R*(I + w) once I > 0 and R > 0. */
  lemma OutputBelowReserve(n: nat, w: nat, i: nat, r: nat)
    requires n == w * r && i > 0 && r > 0
    ensures n < r * (i + w)
  {
    assert r * (i + w) == r * i + r * w;
    MulStrictMono(0, i, r);
    assert i * r == r * i;
  }

  /** The source has no empty-pool guard: any positive trade against zero input reserve is quoted the whole output reserve. */
  lemma EmptyReserveQuotesEverything(a: nat, resOut: nat)
    requires a > 0
    ensures AmountOut(a, 0, resOut) == Some(resOut)
  {
    var w := a * 997;
    assert w * resOut == resOut * w;
    DivExact(resOut, w);
    MulNonneg(w, resOut);
  }

  /** A larger trade is never quoted less. */
  lemma AmountOutMonotone(a: nat, b: nat, resIn: nat, resOut: nat)
    requires a <= b
    requires resIn > 0 || a > 0
    ensures AmountOut(a, resIn, resOut).Some? && AmountOut(b, resIn, resOut).Some?
    ensures AmountOut(a, resIn, resOut).value <= AmountOut(b, resIn, resOut).value
  {
    var i := resIn * 1000;
    var k := 997 * resOut;
    var n1 := a * k;
    var n2 := b * k;
    var d1 := i + a * 997;
    var d2 := i + b * 997;
    MulNonneg(a, k);
    MulNonneg(b, k);
    assert n1 == a * 997 * resOut && n2 == b * 997 * resOut;
    assert n1 * d2 == k * (a * i) + k * (a * (b * 997));
    assert n2 * d1 == k * (b * i) + k * (b * (a * 997));
    MulMono(a, b, i);
    MulMono(a * i, b * i, k);
    DivMonotoneCross(n1, d1, n2, d2);
  }

  /** Within 0..100% slippage the floor never exceeds the quote, and zero slippage keeps it. */
  lemma MinOutBounds(out: nat, s: int)
    requires 0 <= s <= BPS
    ensures 0 <= MinOut(out, s) <= out
    ensures s == 0 ==> MinOut(out, s) == out
  {
    var m := out * (BPS - s);
    MulNonneg(out, BPS - s);
    assert out * (BPS - s) <= out * BPS by {
      MulMono(BPS - s, BPS, out);
      assert (BPS - s) * out == out * (BPS - s);
      assert BPS * out == out * BPS;
    }
    DivExact(out, BPS);
    assert m * BPS <= out * BPS * BPS by { MulMono(m, out * BPS, BPS); }
    DivMonotoneCross(m, BPS, out * BPS, BPS);
  }

  /** `amountA * resB / resA`, the deposit that keeps the pool's current ratio. */
  function RatioQuote(a: int, resA: nat, resB: nat): (b: int)
    requires resA > 0
    ensures a >= 0 ==> b >= 0 && b * resA <= a * resB < (b + 1) * resA
  {
    MulNonneg(if a >= 0 then a else 0, resB);
    TDiv(a * resB, resA)
  }

  /** The ratio quote grows with the first amount and is zero for a zero deposit. */
  lemma RatioMonotone(a: nat, a': nat, resA: nat, resB: nat)
    requires resA > 0 && a <= a'
    ensures RatioQuote(a, resA, resB) <= RatioQuote(a', resA, resB)
    ensures RatioQuote(0, resA, resB) == 0
  {
    MulNonneg(a, resB);
    MulNonneg(a', resB);
    MulMono(a, a', resB);
    MulMono(a * resB, a' * resB, resA);
    DivMonotoneCross(a * resB, resA, a' * resB, resA);
  }
}

=== FILE: boundary.dfy ===
/**
 * The pages' view of everything they do not own: the ethers helpers they call and
 * the contract reads they await. Each is a total function; a call that throws is `None`.
 */
module Boundary {
  import opened Wrappers
  import opened Tokens

  /** `ethers.ZeroAddress`, what the factory's `getPair` returns when no pair exists. */
  const ZERO_ADDRESS: Address := "0x0000000000000000000000000000000000000000"

  /** Foreign helpers, by the name of the call they stand for. */
  datatype Ethers = Ethers(
    parseEther: string -> Option<int>,    // ethers.parseEther: decimal text to wei; may be negative
    isNumeric: string -> bool,            // !isNaN(Number(s))
    formatEstimate: int -> string,        // parseFloat(formatEther(x)).toFixed(6)
    formatEther: int -> string,           // ethers.formatEther
    formatReserve: int -> string,         // parseFloat(formatEther(x)).toFixed(2)
    isAddress: string -> bool,            // ethers.isAddress
    getAddress: string -> Option<Address>,// ethers.getAddress (checksum normalisation)
    isBytesLike: string -> bool,          // ethers.isBytesLike
    decodeBytes32: string -> Option<string>) // ethers.decodeBytes32String

  /** Reserves as returned by a pair's `getReserves()`. */
  datatype Reserves = Reserves(r0: nat, r1: nat)

  /** Contract view calls. `getPair` is the factory's; the others take the pair address. */
  datatype Chain = Chain(
    getPair: (Address, Address) -> Option<Address>,
    reserves: Address -> Option<Reserves>,
    token0: Address -> Option<Address>,
    token1: Address -> Option<Address>,
    swapFee: Address -> Option<nat>,
    allPairsLength: Option<nat>,
    allPairs: nat -> Option<Address>)
}

=== FILE: create_pool.dfy ===
/**
 * The create-pool page: two token pickers that keep their symbols apart, and
 * `onCreatePool`, which creates the pair when the factory has none, approves the
 * router for each ERC-20 leg and adds the first liquidity.
 */
module CreatePool {
  import opened Wrappers
  import opened Tokens
  import opened Boundary
  import opened Notices
  import opened Plans
  import Swap

  const CONNECT_MESSAGE: string := "Please connect your wallet."
  const CREATING_MESSAGE: string := "Creating new pair contract..."
  const DONE_MESSAGE: string := "Liquidity provisioned successfully!"
  const FAILED_MESSAGE: string := "Transaction failed. Please check reserves and try again."
  const POOLS_ROUTE: string := "/liquidity"

  /** Which token button opened the selector. */
  datatype PoolSide = A | B

  datatype CreatePage = CreatePage(
    tokenA: TokenMeta,
    tokenB: TokenMeta,
    amountA: string,
    amountB: string,
    selecting: Option<PoolSide>,
    busy: bool,
    board: Board)

  /** The page as first rendered: MOCA and IUSDC, empty amounts, no notes. */
  function Initial(c: Contracts): (p: CreatePage)
    ensures p.tokenA == Table(c)[0] && p.tokenB == Table(c)[1]
    ensures p.amountA == "" && p.amountB == "" && p.selecting.None? && !p.busy && p.board == EMPTY
  {
    CreatePage(Table(c)[0], Table(c)[1], "", "", None, false, EMPTY)
  }

  predicate Distinct(p: CreatePage) {
    p.tokenA.symbol != p.tokenB.symbol
  }

  /**
   * `handleSelectToken`: the chosen token goes to the side being selected (B unless A
   * was asked for); a side holding the same symbol takes the replaced token instead.
   * Unlike the swap page, the amounts are kept.
   */
  function SelectToken(p: CreatePage, meta: TokenMeta): (q: CreatePage)
    ensures p.selecting == Some(A) ==> q.tokenA == meta
    ensures p.selecting == Some(A) && p.tokenB.symbol == meta.symbol ==> q.tokenB == p.tokenA
    ensures p.selecting == Some(A) && p.tokenB.symbol != meta.symbol ==> q.tokenB == p.tokenB
    ensures p.selecting != Some(A) ==> q.tokenB == meta
    ensures p.selecting != Some(A) && p.tokenA.symbol == meta.symbol ==> q.tokenA == p.tokenB
    ensures p.selecting != Some(A) && p.tokenA.symbol != meta.symbol ==> q.tokenA == p.tokenA
    ensures Distinct(p) ==> Distinct(q)
    ensures q == p.(tokenA := q.tokenA, tokenB := q.tokenB, selecting := None)
  {
    if p.selecting == Some(A) then
      p.(tokenA := meta, tokenB := if meta.symbol == p.tokenB.symbol then p.tokenA else p.tokenB, selecting := None)
    else
      p.(tokenA := if meta.symbol == p.tokenA.symbol then p.tokenB else p.tokenA, tokenB := meta, selecting := None)
  }

  /** Both pages pick tokens by the same rule: side A plays the swap page's input side. */
  lemma SelectionAgreesWithSwap(p: CreatePage, sp: Swap.SwapPage, meta: TokenMeta)
    requires sp.tokenIn == p.tokenA && sp.tokenOut == p.tokenB
    requires sp.selecting == Some(Swap.In) <==> p.selecting == Some(A)
    ensures Swap.SelectToken(sp, meta).tokenIn == SelectToken(p, meta).tokenA
    ensures Swap.SelectToken(sp, meta).tokenOut == SelectToken(p, meta).tokenB
  {
  }

  /** The ERC-20 leg of a pool with a native side: the other token and its amount. */
  function TokenLeg(p: CreatePage, c: Contracts, amtA: int, amtB: int): (leg: (Address, int))
    ensures p.tokenA.isNative ==> leg == (Resolve(p.tokenB, c), amtB)
    ensures !p.tokenA.isNative ==> leg == (Resolve(p.tokenA, c), amtA)
  {
    if p.tokenA.isNative then (Resolve(p.tokenB, c), amtB) else (Resolve(p.tokenA, c), amtA)
  }

  /** The wei of the native side, sent as the transaction's value. */
  function NativeAmount(p: CreatePage, amtA: int, amtB: int): int {
    if p.tokenA.isNative then amtA else amtB
  }

  /** The transactions that fund the pool once it exists, in the order they are awaited. */
  function ProvisionCalls(p: CreatePage, c: Contracts, amtA: int, amtB: int, account: Address): (calls: seq<Call>)
    ensures p.tokenA.isNative || p.tokenB.isNative ==> |calls| == 2
    ensures !p.tokenA.isNative && !p.tokenB.isNative ==> |calls| == 3
  {
    var aAddr := Resolve(p.tokenA, c);
    var bAddr := Resolve(p.tokenB, c);
    if p.tokenA.isNative || p.tokenB.isNative then
      var (token, tAmt) := TokenLeg(p, c, amtA, amtB);
      [Approve(token, c.router, tAmt), AddLiquidityMoca(token, tAmt, account, NativeAmount(p, amtA, amtB))]
    else
      [Approve(aAddr, c.router, amtA), Approve(bAddr, c.router, amtB), AddLiquidity(aAddr, bAddr, amtA, amtB, Some(account))]
  }

  /**
   * With a native side there is exactly one approval, on the ERC-20 leg and for its
   * amount, and the native amount travels only as the value of `addLiquidityMOCA`.
   */
  lemma NativeProvision(p: CreatePage, c: Contracts, amtA: int, amtB: int, account: Address)
    requires p.tokenA.isNative || p.tokenB.isNative
    ensures var calls := ProvisionCalls(p, c, amtA, amtB, account);
            var other := if p.tokenA.isNative then p.tokenB else p.tokenA;
            var otherAmt := if p.tokenA.isNative then amtB else amtA;
            var nativeAmt := if p.tokenA.isNative then amtA else amtB;
            (forall i | 0 <= i < |calls| :: calls[i].Approve? <==> i == 0) &&
            calls[0] == Approve(Resolve(other, c), c.router, otherAmt) &&
            calls[1].AddLiquidityMoca? && calls[1].token == Resolve(other, c) &&
            calls[1].amount == otherAmt && calls[1].to == account && calls[1].value == nativeAmt
  {
  }

  /** Without a native side: approve A for its amount, then B for its amount, then add both. */
  lemma Erc20Provision(p: CreatePage, c: Contracts, amtA: int, amtB: int, account: Address)
    requires !p.tokenA.isNative && !p.tokenB.isNative
    ensures var calls := ProvisionCalls(p, c, amtA, amtB, account);
            calls[0] == Approve(p.tokenA.address, c.router, amtA) &&
            calls[1] == Approve(p.tokenB.address, c.router, amtB) &&
            calls[2] == AddLiquidity(p.tokenA.address, p.tokenB.address, amtA, amtB, Some(account)) &&
            forall i | 0 <= i < |calls| :: !calls[i].AddLiquidityMoca? && !calls[i].CreatePair?
  {
  }

  /** The token addresses a call names. */
  function Targets(call: Call): (ts: set<Address>)
    ensures call.Deposit? || call.Withdraw? ==> ts == {}
  {
    match call
    case CreatePair(a, b) => {a, b}
    case Approve(t, _, _) => {t}
    case AddLiquidity(a, b, _, _, _) => {a, b}
    case AddLiquidityMoca(t, _, _, _) => {t}
    case Deposit(_) => {}
    case Withdraw(_) => {}
  }

  /** `onCreatePool` after its guard, line by line. */
  function CreatePoolPlan(p: CreatePage, c: Contracts, chain: Chain, lib: Ethers, account: Address, signerOk: bool): (plan: seq<Step>)
    ensures NoErrorNotes(plan)
    ensures |plan| > 0
    ensures (|| !signerOk
             || chain.getPair(Resolve(p.tokenA, c), Resolve(p.tokenB, c)).None?
             || lib.parseEther(p.amountA).None?
             || lib.parseEther(p.amountB).None?) <==> HasAbort(plan)
    ensures !HasAbort(plan) ==> plan[|plan| - 1] == Notify(Success, DONE_MESSAGE)
  {
    var aAddr := Resolve(p.tokenA, c);
    var bAddr := Resolve(p.tokenB, c);
    assert [Abort][0].Abort?;
    if !signerOk then [Abort]
    else
      match chain.getPair(aAddr, bAddr)
      case None => [Abort]
      case Some(pair) =>
        var create := if pair == ZERO_ADDRESS then [Notify(Info, CREATING_MESSAGE), Send(CreatePair(aAddr, bAddr))] else [];
        var fund :=
          match (lib.parseEther(p.amountA), lib.parseEther(p.amountB))
          case (Some(amtA), Some(amtB)) => SendAll(ProvisionCalls(p, c, amtA, amtB, account)) + [Notify(Success, DONE_MESSAGE)]
          case _ => [Abort];
        PlanProperties(create, fund, p, c, lib, account);
        create + fund
  }

  lemma PlanProperties(create: seq<Step>, fund: seq<Step>, p: CreatePage, c: Contracts, lib: Ethers, account: Address)
    requires NoErrorNotes(create) && !HasAbort(create)
    requires fund == match (lib.parseEther(p.amountA), lib.parseEther(p.amountB))
                     case (Some(amtA), Some(amtB)) => SendAll(ProvisionCalls(p, c, amtA, amtB, account)) + [Notify(Success, DONE_MESSAGE)]
                     case _ => [Abort]
    ensures NoErrorNotes(create + fund) && |create + fund| > 0
    ensures lib.parseEther(p.amountA).None? || lib.parseEther(p.amountB).None? <==> HasAbort(create + fund)
    ensures !HasAbort(create + fund) ==> (create + fund)[|create + fund| - 1] == Notify(Success, DONE_MESSAGE)
  {
    PlanAppend(create, fund);
    match (lib.parseEther(p.amountA), lib.parseEther(p.amountB))
    case (Some(amtA), Some(amtB)) =>
      var calls := ProvisionCalls(p, c, amtA, amtB, account);
      SendAllCalls(calls);
      PlanAppend(SendAll(calls), [Notify(Success, DONE_MESSAGE)]);
      assert !HasAbort([Notify(Success, DONE_MESSAGE)]);
      assert !HasAbort(fund);
    case _ =>
      assert fund[0].Abort?;
      assert HasAbort(fund);
  }

  /** The calls of `create + fund`, where `fund` is the funding part of the plan. */
  lemma FundCalls(create: seq<Step>, p: CreatePage, c: Contracts, lib: Ethers, account: Address)
    ensures var fund := match (lib.parseEther(p.amountA), lib.parseEther(p.amountB))
                        case (Some(amtA), Some(amtB)) => SendAll(ProvisionCalls(p, c, amtA, amtB, account)) + [Notify(Success, DONE_MESSAGE)]
                        case _ => [Abort];
            CallsOf(create + fund) == CallsOf(create) +
              (if lib.parseEther(p.amountA).Some? && lib.parseEther(p.amountB).Some?
               then ProvisionCalls(p, c, lib.parseEther(p.amountA).value, lib.parseEther(p.amountB).value, account)
               else [])
  {
    var fund := match (lib.parseEther(p.amountA), lib.parseEther(p.amountB))
                case (Some(amtA), Some(amtB)) => SendAll(ProvisionCalls(p, c, amtA, amtB, account)) + [Notify(Success, DONE_MESSAGE)]
                case _ => [Abort];
    PlanAppend(create, fund);
    if lib.parseEther(p.amountA).Some? && lib.parseEther(p.amountB).Some? {
      var calls := ProvisionCalls(p, c, lib.parseEther(p.amountA).value, lib.parseEther(p.amountB).value, account);
      SendAllCalls(calls);
      PlanAppend(SendAll(calls), [Notify(Success, DONE_MESSAGE)]);
      assert CallsOf([Notify(Success, DONE_MESSAGE)]) == [];
    } else {
      assert CallsOf(fund) == [];
    }
  }

  /**
   * The transactions the plan holds: `createPair` first exactly when the factory reports
   * the zero address, then the funding transactions once both amounts parse.
   */
  lemma CreatePoolCalls(p: CreatePage, c: Contracts, chain: Chain, lib: Ethers, account: Address)
    ensures var aAddr := Resolve(p.tokenA, c);
            var bAddr := Resolve(p.tokenB, c);
            var calls := CallsOf(CreatePoolPlan(p, c, chain, lib, account, true));
            var pair := chain.getPair(aAddr, bAddr);
            calls == (if pair == Some(ZERO_ADDRESS) then [CreatePair(aAddr, bAddr)] else []) +
                     (if pair.Some? && lib.parseEther(p.amountA).Some? && lib.parseEther(p.amountB).Some?
                      then ProvisionCalls(p, c, lib.parseEther(p.amountA).value, lib.parseEther(p.amountB).value, account)
                      else [])
    ensures CallsOf(CreatePoolPlan(p, c, chain, lib, account, false)) == []
  {
    var aAddr := Resolve(p.tokenA, c);
    var bAddr := Resolve(p.tokenB, c);
    assert CallsOf([Abort]) == [];
    match chain.getPair(aAddr, bAddr)
    case None =>
    case Some(pair) =>
      var create := if pair == ZERO_ADDRESS then [Notify(Info, CREATING_MESSAGE), Send(CreatePair(aAddr, bAddr))] else [];
      FundCalls(create, p, c, lib, account);
      assert CallsOf(create) == if pair == ZERO_ADDRESS then [CreatePair(aAddr, bAddr)] else [];
  }

  /** `createPair` is preceded by its info note and comes before every approval and deposit. */
  lemma CreatePairAnnounced(p: CreatePage, c: Contracts, chain: Chain, lib: Ethers, account: Address)
    requires chain.getPair(Resolve(p.tokenA, c), Resolve(p.tokenB, c)) == Some(ZERO_ADDRESS)
    ensures var plan := CreatePoolPlan(p, c, chain, lib, account, true);
            |plan| >= 2 && plan[0] == Notify(Info, CREATING_MESSAGE) &&
            plan[1] == Send(CreatePair(Resolve(p.tokenA, c), Resolve(p.tokenB, c))) &&
            forall i | 1 <= i < |CallsOf(plan)| :: !CallsOf(plan)[i].CreatePair?
  {
    CreatePoolCalls(p, c, chain, lib, account);
  }

  /** A call that names only the two resolved tokens, approves only the router, and never wraps. */
  predicate UsesResolved(call: Call, aAddr: Address, bAddr: Address, router: Address) {
    && Targets(call) <= {aAddr, bAddr}
    && (call.Approve? ==> call.spender == router)
    && !call.Deposit? && !call.Withdraw?
  }

  lemma ProvisionUsesResolved(p: CreatePage, c: Contracts, amtA: int, amtB: int, account: Address)
    ensures var calls := ProvisionCalls(p, c, amtA, amtB, account);
            forall i | 0 <= i < |calls| :: UsesResolved(calls[i], Resolve(p.tokenA, c), Resolve(p.tokenB, c), c.router)
  {
    var calls := ProvisionCalls(p, c, amtA, amtB, account);
    var aAddr := Resolve(p.tokenA, c);
    var bAddr := Resolve(p.tokenB, c);
    if p.tokenA.isNative || p.tokenB.isNative {
      var (token, tAmt) := TokenLeg(p, c, amtA, amtB);
      assert token == aAddr || token == bAddr;
      assert Targets(calls[0]) == {token} && Targets(calls[1]) == {token};
    } else {
      assert Targets(calls[0]) == {aAddr} && Targets(calls[1]) == {bAddr} && Targets(calls[2]) == {aAddr, bAddr};
    }
  }

  predicate AllResolved(calls: seq<Call>, aAddr: Address, bAddr: Address, router: Address) {
    forall i | 0 <= i < |calls| :: UsesResolved(calls[i], aAddr, bAddr, router)
  }

  lemma AllResolvedAppend(xs: seq<Call>, ys: seq<Call>, aAddr: Address, bAddr: Address, router: Address)
    requires AllResolved(xs, aAddr, bAddr, router) && AllResolved(ys, aAddr, bAddr, router)
    ensures AllResolved(xs + ys, aAddr, bAddr, router)
  {
    forall i | 0 <= i < |xs + ys| ensures UsesResolved((xs + ys)[i], aAddr, bAddr, router) {
      if i >= |xs| { assert (xs + ys)[i] == ys[i - |xs|]; }
    }
  }

  /**
   * Native sides are resolved to WMOCA everywhere: every token a transaction names is one
   * of the two resolved addresses, the router is the only spender approved, and nothing
   * is wrapped or unwrapped.
   */
  lemma CallsUseResolvedAddresses(p: CreatePage, c: Contracts, chain: Chain, lib: Ethers, account: Address, signerOk: bool)
    ensures AllResolved(CallsOf(CreatePoolPlan(p, c, chain, lib, account, signerOk)), Resolve(p.tokenA, c), Resolve(p.tokenB, c), c.router)
  {
    var aAddr := Resolve(p.tokenA, c);
    var bAddr := Resolve(p.tokenB, c);
    CreatePoolCalls(p, c, chain, lib, account);
    if signerOk {
      var pair := chain.getPair(aAddr, bAddr);
      var pre := if pair == Some(ZERO_ADDRESS) then [CreatePair(aAddr, bAddr)] else [];
      var post := if pair.Some? && lib.parseEther(p.amountA).Some? && lib.parseEther(p.amountB).Some?
                  then ProvisionCalls(p, c, lib.parseEther(p.amountA).value, lib.parseEther(p.amountB).value, account)
                  else [];
      assert AllResolved(pre, aAddr, bAddr, c.router);
      if |post| > 0 {
        ProvisionUsesResolved(p, c, lib.parseEther(p.amountA).value, lib.parseEther(p.amountB).value, account);
      }
      AllResolvedAppend(pre, post, aAddr, bAddr, c.router);
    }
  }

  /** When no address in play is the sentinel itself, the sentinel is never sent to a contract. */
  lemma NoSentinelSent(p: CreatePage, c: Contracts, chain: Chain, lib: Ethers, account: Address, signerOk: bool)
    requires c.wmoca != NATIVE
    requires p.tokenA.isNative || p.tokenA.address != NATIVE
    requires p.tokenB.isNative || p.tokenB.address != NATIVE
    ensures var calls := CallsOf(CreatePoolPlan(p, c, chain, lib, account, signerOk));
            forall i | 0 <= i < |calls| :: NATIVE !in Targets(calls[i])
  {
    CallsUseResolvedAddresses(p, c, chain, lib, account, signerOk);
  }

  /**
   * `onCreatePool`: the connection guard, then the plan; a failure anywhere adds one
   * error note, success navigates to the pool list, and busy is cleared either way.
   */
  function OnCreatePool(p: CreatePage, c: Contracts, chain: Chain, lib: Ethers, s: Session): (e: Effect<CreatePage>)
    ensures s.account.None? || !s.walletClient ==>
              !e.started && e.sent == [] && e.navigate.None? &&
              e.page == p.(board := e.page.board) &&
              e.page.board.items == p.board.items + [Note(p.board.nextId, Info, CONNECT_MESSAGE)]
    ensures s.account.Some? && s.walletClient ==> e.started && !e.page.busy
    ensures e.page.tokenA == p.tokenA && e.page.tokenB == p.tokenB
    ensures e.page.amountA == p.amountA && e.page.amountB == p.amountB
    ensures e.started && !e.settled ==>
              e.navigate.None? &&
              Count(e.page.board.items, Error) == Count(p.board.items, Error) + 1 &&
              e.page.board.items[|e.page.board.items| - 1].kind == Error &&
              e.page.board.items[|e.page.board.items| - 1].message == FAILED_MESSAGE
    ensures e.settled ==>
              e.navigate == Some(POOLS_ROUTE) && Count(e.page.board.items, Error) == Count(p.board.items, Error)
    ensures Valid(p.board) ==> Valid(e.page.board)
  {
    if s.account.None? || !s.walletClient then
      Effect(p.(board := Push(p.board, Info, CONNECT_MESSAGE)), [], false, false, None)
    else
      var run := RunPlan(CreatePoolPlan(p, c, chain, lib, s.account.value, s.signerOk), s.failAt, p.board);
      PushCount(run.board, Error, FAILED_MESSAGE, Error);
      var board := if run.completed then run.board else Push(run.board, Error, FAILED_MESSAGE);
      Effect(p.(busy := false, board := board), run.sent, true, run.completed,
             if run.completed then Some(POOLS_ROUTE) else None)
  }

  /**
   * What `onCreatePool` sends: a prefix of the plan's transactions, so earlier ones are
   * never undone; the failing one is the last sent; a success sends all of them and
   * leaves the success note last.
   */
  lemma CreatePoolOutcome(p: CreatePage, c: Contracts, chain: Chain, lib: Ethers, s: Session)
    requires s.account.Some? && s.walletClient
    ensures var e := OnCreatePool(p, c, chain, lib, s);
            var plan := CreatePoolPlan(p, c, chain, lib, s.account.value, s.signerOk);
            var calls := CallsOf(plan);
            e.sent <= calls &&
            (s.failAt.Some? && s.failAt.value < |e.sent| ==> s.failAt.value == |e.sent| - 1 && !e.settled) &&
            (!HasAbort(plan) && s.failAt.Some? && s.failAt.value < |calls| ==> e.sent == calls[..s.failAt.value + 1]) &&
            (e.settled <==> !HasAbort(plan) && !(s.failAt.Some? && s.failAt.value < |calls|)) &&
            (e.settled ==>
               && e.sent == calls
               && |e.page.board.items| > 0
               && e.page.board.items[|e.page.board.items| - 1].kind == Success
               && e.page.board.items[|e.page.board.items| - 1].message == DONE_MESSAGE)
  {
    var plan := CreatePoolPlan(p, c, chain, lib, s.account.value, s.signerOk);
    if !HasAbort(plan) {
      RunFromLastNote(plan, s.failAt, [], p.board);
    }
  }

  /**
   * The action can succeed: with an account, a wallet client that yields a signer, a
   * pair lookup that answers, two amounts that parse and every transaction confirming,
   * it sends all of its transactions and navigates to the pool list.
   */
  lemma CreatePoolSucceeds(p: CreatePage, c: Contracts, chain: Chain, lib: Ethers, s: Session)
    requires s.account.Some? && s.walletClient && s.signerOk && s.failAt.None?
    requires chain.getPair(Resolve(p.tokenA, c), Resolve(p.tokenB, c)).Some?
    requires lib.parseEther(p.amountA).Some? && lib.parseEther(p.amountB).Some?
    ensures var e := OnCreatePool(p, c, chain, lib, s);
            && e.settled && e.navigate == Some(POOLS_ROUTE)
            && e.sent == CallsOf(CreatePoolPlan(p, c, chain, lib, s.account.value, s.signerOk))
  {
  }
}

=== FILE: notices.dfy ===
/**
 * The notification list each page keeps: `push` appends a note with a fresh id,
 * `close` removes the notes with a given id. Ids come from a counter that is never
 * reused, which is what the random `uuidv4()` ids of the pages give in practice.
 */
module Notices {

  datatype Kind = Success | Error | Info

  datatype Note = Note(id: nat, kind: Kind, message: string)

  /** The list in display order, and the next id to hand out. */
  datatype Board = Board(items: seq<Note>, nextId: nat)

  const EMPTY: Board := Board([], 0)

  /** Every id on the board was handed out already and no id appears twice. */
  ghost predicate Valid(b: Board) {
    && (forall i | 0 <= i < |b.items| :: b.items[i].id < b.nextId)
    && DistinctIds(b.items)
  }

  /** Appends one note at the end, with an id that no note on the board carries. */
  function Push(b: Board, kind: Kind, message: string): (r: Board)
    ensures |r.items| == |b.items| + 1 && r.items[..|b.items|] == b.items
    ensures r.items[|b.items|].kind == kind && r.items[|b.items|].message == message
    ensures Valid(b) ==> Valid(r) && forall n | n in b.items :: n.id != r.items[|b.items|].id
    ensures r.nextId > b.nextId
  {
    Board(b.items + [Note(b.nextId, kind, message)], b.nextId + 1)
  }

  /** `items.filter(n => n.id !== id)`. */
  function Without(items: seq<Note>, id: nat): (r: seq<Note>)
    ensures |r| <= |items|
    ensures forall n :: n in r <==> n in items && n.id != id
  {
    if |items| == 0 then []
    else if items[0].id == id then Without(items[1..], id)
    else [items[0]] + Without(items[1..], id)
  }

  /** Closing a note: every note with that id goes, every other note stays. */
  function Close(b: Board, id: nat): (r: Board)
    ensures r.nextId == b.nextId
    ensures forall n :: n in r.items <==> n in b.items && n.id != id
    ensures Valid(b) ==> Valid(r)
  {
    var r := Board(Without(b.items, id), b.nextId);
    WithoutKeepsDistinct(b.items, id);
    r
  }

  ghost predicate DistinctIds(items: seq<Note>) {
    forall i, j | 0 <= i < j < |items| :: items[i].id != items[j].id
  }

  lemma {:induction false} WithoutKeepsDistinct(items: seq<Note>, id: nat)
    ensures DistinctIds(items) ==> DistinctIds(Without(items, id))
  {
    if |items| > 0 && DistinctIds(items) {
      WithoutKeepsDistinct(items[1..], id);
      var rest := Without(items[1..], id);
      if items[0].id != id {
        forall j | 0 <= j < |rest| ensures rest[j].id != items[0].id {
          assert rest[j] in items[1..];
        }
      }
    }
  }

  /** Filtering distributes over concatenation, so closing keeps the remaining notes in order. */
  lemma {:induction false} WithoutAppend(a: seq<Note>, b: seq<Note>, id: nat)
    ensures Without(a + b, id) == Without(a, id) + Without(b, id)
  {
    if |a| == 0 {
      assert a + b == b;
    } else {
      assert (a + b)[1..] == a[1..] + b;
      WithoutAppend(a[1..], b, id);
    }
  }

  /** Closing an id twice is the same as closing it once. */
  lemma {:induction false} CloseIdempotent(b: Board, id: nat)
    ensures Close(Close(b, id), id) == Close(b, id)
  {
    WithoutIdempotent(b.items, id);
  }

  lemma {:induction false} WithoutIdempotent(items: seq<Note>, id: nat)
    ensures Without(Without(items, id), id) == Without(items, id)
  {
    if |items| > 0 {
      WithoutIdempotent(items[1..], id);
    }
  }

  /** A note whose id is on no note of the board leaves the board as it is when closed. */
  lemma {:induction false} WithoutAbsent(items: seq<Note>, id: nat)
    requires forall n | n in items :: n.id != id
    ensures Without(items, id) == items
  {
    if |items| > 0 {
      WithoutAbsent(items[1..], id);
    }
  }

  /** Closing the note just pushed gives back the notes that were there before. */
  lemma PushThenClose(b: Board, kind: Kind, message: string)
    requires Valid(b)
    ensures Close(Push(b, kind, message), b.nextId).items == b.items
  {
    var note := Note(b.nextId, kind, message);
    WithoutAppend(b.items, [note], b.nextId);
    WithoutAbsent(b.items, b.nextId);
    assert Without([note], b.nextId) == [];
  }

  /** How many notes of a kind the list holds. */
  function Count(items: seq<Note>, kind: Kind): (n: nat)
    ensures n <= |items|
    ensures n == 0 <==> forall i | 0 <= i < |items| :: items[i].kind != kind
  {
    if |items| == 0 then 0
    else (if items[0].kind == kind then 1 else 0) + Count(items[1..], kind)
  }

  lemma {:induction false} CountAppend(a: seq<Note>, b: seq<Note>, kind: Kind)
    ensures Count(a + b, kind) == Count(a, kind) + Count(b, kind)
  {
    if |a| == 0 {
      assert a + b == b;
    } else {
      assert (a + b)[1..] == a[1..] + b;
      CountAppend(a[1..], b, kind);
    }
  }

  /** Pushing a note adds one to the count of its kind and leaves the other kinds alone. */
  lemma PushCount(b: Board, kind: Kind, message: string, k: Kind)
    ensures Count(Push(b, kind, message).items, k) == Count(b.items, k) + (if kind == k then 1 else 0)
  {
    var note := Push(b, kind, message).items[|b.items|];
    assert Push(b, kind, message).items == b.items + [note];
    CountAppend(b.items, [note], k);
    assert [note][1..] == [];
  }
}

=== FILE: plans.dfy ===
/**
 * Contract writes and the strictly sequential way the pages issue them: each
 * transaction is awaited (`(await tx).wait()`) before the next line runs, and a
 * throw anywhere skips every later line and lands in the page's `catch`.
 */
module Plans {
  import opened Wrappers
  import opened Tokens
  import opened Notices

  /** A transaction a page sends, with the arguments it passes. */
  datatype Call =
    | CreatePair(tokenA: Address, tokenB: Address)                       // factory.createPair
    | Approve(token: Address, spender: Address, amount: int)             // ERC-20 approve
    | AddLiquidity(tokenA: Address, tokenB: Address, amountA: int, amountB: int, recipient: Option<Address>)
    | AddLiquidityMoca(token: Address, amount: int, to: Address, value: int) // value = native wei attached
    | Deposit(value: int)                                                // WMOCA.deposit{value}
    | Withdraw(amount: int)                                              // WMOCA.withdraw

  /** One line of a page action: push a note, send and await a transaction, or throw. */
  datatype Step = Notify(kind: Kind, message: string) | Send(call: Call) | Abort

  /** What running a plan did: the transactions sent, the notes pushed, whether it reached the end. */
  datatype Run = Run(sent: seq<Call>, board: Board, completed: bool)

  /** The transactions of a plan, in plan order. */
  function CallsOf(plan: seq<Step>): (calls: seq<Call>)
    ensures |calls| <= |plan|
  {
    if |plan| == 0 then []
    else (if plan[0].Send? then [plan[0].call] else []) + CallsOf(plan[1..])
  }

  predicate HasAbort(plan: seq<Step>) {
    exists i | 0 <= i < |plan| :: plan[i].Abort?
  }

  /** A plan that pushes no note at all. */
  predicate Silent(plan: seq<Step>) {
    forall i | 0 <= i < |plan| :: !plan[i].Notify?
  }

  predicate NoErrorNotes(plan: seq<Step>) {
    forall i | 0 <= i < |plan| :: !(plan[i].Notify? && plan[i].kind == Error)
  }

  /** Splitting off the first line of a plan. */
  lemma PlanCons(plan: seq<Step>)
    requires |plan| > 0
    ensures CallsOf(plan) == (if plan[0].Send? then [plan[0].call] else []) + CallsOf(plan[1..])
    ensures HasAbort(plan) <==> plan[0].Abort? || HasAbort(plan[1..])
    ensures NoErrorNotes(plan) <==> !(plan[0].Notify? && plan[0].kind == Error) && NoErrorNotes(plan[1..])
    ensures Silent(plan) <==> !plan[0].Notify? && Silent(plan[1..])
  {
    AbortCons(plan);
    SilentCons(plan);
    ErrorNotesCons(plan);
  }

  lemma AbortCons(plan: seq<Step>)
    requires |plan| > 0
    ensures HasAbort(plan) <==> plan[0].Abort? || HasAbort(plan[1..])
  {
    var rest := plan[1..];
    if HasAbort(rest) {
      var i :| 0 <= i < |rest| && rest[i].Abort?;
      assert plan[i + 1].Abort?;
    }
  }

  lemma SilentCons(plan: seq<Step>)
    requires |plan| > 0
    ensures Silent(plan) <==> !plan[0].Notify? && Silent(plan[1..])
  {
    var rest := plan[1..];
    if !plan[0].Notify? && Silent(rest) {
      forall i | 0 <= i < |plan| ensures !plan[i].Notify? {
        if i > 0 { assert plan[i] == rest[i - 1]; }
      }
    }
  }

  lemma ErrorNotesCons(plan: seq<Step>)
    requires |plan| > 0
    ensures NoErrorNotes(plan) <==> !(plan[0].Notify? && plan[0].kind == Error) && NoErrorNotes(plan[1..])
  {
    var rest := plan[1..];
    if !(plan[0].Notify? && plan[0].kind == Error) && NoErrorNotes(rest) {
      forall i | 0 <= i < |plan| ensures !(plan[i].Notify? && plan[i].kind == Error) {
        if i > 0 { assert plan[i] == rest[i - 1]; }
      }
    }
  }

  /** Plans compose: the calls, throws and error notes of `a + b` are those of `a` and of `b`. */
  lemma {:induction false} PlanAppend(a: seq<Step>, b: seq<Step>)
    ensures CallsOf(a + b) == CallsOf(a) + CallsOf(b)
    ensures HasAbort(a + b) <==> HasAbort(a) || HasAbort(b)
    ensures NoErrorNotes(a + b) <==> NoErrorNotes(a) && NoErrorNotes(b)
    decreases |a|
  {
    if |a| == 0 {
      assert a + b == b;
      assert !HasAbort(a) && NoErrorNotes(a);
    } else {
      PlanCons(a);
      PlanCons(a + b);
      assert (a + b)[1..] == a[1..] + b;
      PlanAppend(a[1..], b);
    }
  }

  /** Awaiting each of `calls` in turn, with nothing in between. */
  function SendAll(calls: seq<Call>): (plan: seq<Step>)
    ensures |plan| == |calls|
    ensures forall i | 0 <= i < |calls| :: plan[i] == Send(calls[i])
  {
    if |calls| == 0 then [] else [Send(calls[0])] + SendAll(calls[1..])
  }

  /** A plan made only of sends sends exactly those calls, never throws, and pushes no note. */
  lemma {:induction false} SendAllCalls(calls: seq<Call>)
    ensures CallsOf(SendAll(calls)) == calls
    ensures !HasAbort(SendAll(calls)) && Silent(SendAll(calls)) && NoErrorNotes(SendAll(calls))
    decreases |calls|
  {
    var plan := SendAll(calls);
    if |calls| > 0 {
      PlanCons(plan);
      assert plan[1..] == SendAll(calls[1..]);
      SendAllCalls(calls[1..]);
      assert calls == [calls[0]] + calls[1..];
    }
  }

  /**
   * Runs `plan` after `sent` transactions have already been sent. The transaction sent
   * in position `failAt` (counting from 0 over the whole action) is the first that does
   * not confirm: the wallet rejected it, it reverted, or the transport failed.
   */
  function RunFrom(plan: seq<Step>, failAt: Option<nat>, sent: seq<Call>, board: Board): (r: Run)
    ensures sent <= r.sent
    ensures board.items <= r.board.items
    decreases |plan|
  {
    if |plan| == 0 then Run(sent, board, true)
    else
      match plan[0]
      case Abort => Run(sent, board, false)
      case Notify(kind, message) => RunFrom(plan[1..], failAt, sent, Push(board, kind, message))
      case Send(call) =>
        if failAt == Some(|sent|) then Run(sent + [call], board, false)
        else RunFrom(plan[1..], failAt, sent + [call], board)
  }

  /** Only the plan's own transactions are sent, in plan order, and all of them when it completes. */
  lemma {:induction false} RunFromSends(plan: seq<Step>, failAt: Option<nat>, sent: seq<Call>, board: Board)
    ensures RunFrom(plan, failAt, sent, board).sent <= sent + CallsOf(plan)
    ensures RunFrom(plan, failAt, sent, board).completed ==>
              RunFrom(plan, failAt, sent, board).sent == sent + CallsOf(plan)
    decreases |plan|
  {
    if |plan| > 0 {
      var rest := plan[1..];
      match plan[0]
      case Abort =>
        assert sent == (sent + CallsOf(plan))[..|sent|];
      case Notify(kind, message) =>
        assert CallsOf(plan) == CallsOf(rest);
        RunFromSends(rest, failAt, sent, Push(board, kind, message));
      case Send(call) =>
        var sent' := sent + [call];
        assert CallsOf(plan) == [call] + CallsOf(rest);
        assert sent' + CallsOf(rest) == sent + CallsOf(plan);
        if failAt == Some(|sent|) {
          assert sent' == (sent' + CallsOf(rest))[..|sent'|];
        } else {
          RunFromSends(rest, failAt, sent', board);
        }
    }
  }

  /** A plan completes exactly when it holds no throw and none of its transactions fails. */
  lemma {:induction false} RunFromCompletes(plan: seq<Step>, failAt: Option<nat>, sent: seq<Call>, board: Board)
    ensures RunFrom(plan, failAt, sent, board).completed <==>
              !HasAbort(plan) && !(failAt.Some? && |sent| <= failAt.value < |sent| + |CallsOf(plan)|)
    decreases |plan|
  {
    if |plan| > 0 {
      AbortCons(plan);
      match plan[0]
      case Abort =>
      case Notify(kind, message) =>
        RunFromCompletes(plan[1..], failAt, sent, Push(board, kind, message));
      case Send(call) =>
        if failAt != Some(|sent|) {
          RunFromCompletes(plan[1..], failAt, sent + [call], board);
        }
    }
  }

  /** The failing transaction is the last one sent: nothing is sent after it. */
  lemma {:induction false} RunFromStopsAtFailure(plan: seq<Step>, failAt: Option<nat>, sent: seq<Call>, board: Board)
    requires failAt.Some? ==> failAt.value >= |sent|
    ensures var r := RunFrom(plan, failAt, sent, board);
            failAt.Some? && failAt.value < |r.sent| ==> failAt.value == |r.sent| - 1 && !r.completed
    decreases |plan|
  {
    if |plan| > 0 {
      match plan[0]
      case Abort =>
      case Notify(kind, message) =>
        RunFromStopsAtFailure(plan[1..], failAt, sent, Push(board, kind, message));
      case Send(call) =>
        if failAt != Some(|sent|) {
          RunFromStopsAtFailure(plan[1..], failAt, sent + [call], board);
        }
    }
  }

  /** Running a plan keeps the board valid and adds error notes only if the plan has some. */
  lemma {:induction false} RunFromNotes(plan: seq<Step>, failAt: Option<nat>, sent: seq<Call>, board: Board)
    ensures Valid(board) ==> Valid(RunFrom(plan, failAt, sent, board).board)
    ensures NoErrorNotes(plan) ==> Count(RunFrom(plan, failAt, sent, board).board.items, Error) == Count(board.items, Error)
    ensures Silent(plan) ==> RunFrom(plan, failAt, sent, board).board == board
    decreases |plan|
  {
    if |plan| > 0 {
      PlanCons(plan);
      match plan[0]
      case Abort =>
      case Notify(kind, message) =>
        var pushed := Push(board, kind, message);
        assert pushed.items == board.items + [pushed.items[|board.items|]];
        CountAppend(board.items, [pushed.items[|board.items|]], Error);
        RunFromNotes(plan[1..], failAt, sent, pushed);
      case Send(call) =>
        if failAt != Some(|sent|) {
          RunFromNotes(plan[1..], failAt, sent + [call], board);
        }
    }
  }

  /**
   * Nothing sent is undone: when the transaction in position `failAt` fails, every
   * transaction up to and including it has been sent, and nothing after it.
   */
  lemma {:induction false} RunFromSendsUpToFailure(plan: seq<Step>, failAt: Option<nat>, sent: seq<Call>, board: Board)
    requires !HasAbort(plan)
    requires failAt.Some? && |sent| <= failAt.value < |sent| + |CallsOf(plan)|
    ensures RunFrom(plan, failAt, sent, board).sent == (sent + CallsOf(plan))[..failAt.value + 1]
    decreases |plan|
  {
    var rest := plan[1..];
    AbortCons(plan);
    match plan[0]
    case Notify(kind, message) =>
      assert CallsOf(plan) == CallsOf(rest);
      RunFromSendsUpToFailure(rest, failAt, sent, Push(board, kind, message));
    case Send(call) =>
      var sent' := sent + [call];
      assert CallsOf(plan) == [call] + CallsOf(rest);
      assert sent' + CallsOf(rest) == sent + CallsOf(plan);
      if failAt == Some(|sent|) {
        assert sent' == (sent + CallsOf(plan))[..|sent'|];
      } else {
        RunFromSendsUpToFailure(rest, failAt, sent', board);
      }
  }

  /** A plan that completes and ends with a note leaves that note last on the board. */
  lemma {:induction false} RunFromLastNote(plan: seq<Step>, failAt: Option<nat>, sent: seq<Call>, board: Board)
    requires |plan| > 0 && plan[|plan| - 1].Notify?
    ensures var r := RunFrom(plan, failAt, sent, board);
            r.completed ==>
              |r.board.items| > 0 &&
              r.board.items[|r.board.items| - 1].kind == plan[|plan| - 1].kind &&
              r.board.items[|r.board.items| - 1].message == plan[|plan| - 1].message
    decreases |plan|
  {
    match plan[0]
    case Abort =>
    case Notify(kind, message) =>
      if |plan| > 1 {
        RunFromLastNote(plan[1..], failAt, sent, Push(board, kind, message));
      }
    case Send(call) =>
      if failAt != Some(|sent|) {
        RunFromLastNote(plan[1..], failAt, sent + [call], board);
      }
  }

  /** Runs a whole plan from its first line. */
  function RunPlan(plan: seq<Step>, failAt: Option<nat>, board: Board): (r: Run)
    ensures r.sent <= CallsOf(plan)
    ensures r.completed <==> !HasAbort(plan) && !(failAt.Some? && failAt.value < |CallsOf(plan)|)
    ensures r.completed ==> r.sent == CallsOf(plan)
    ensures failAt.Some? && failAt.value < |r.sent| ==> failAt.value == |r.sent| - 1 && !r.completed
    ensures !HasAbort(plan) && failAt.Some? && failAt.value < |CallsOf(plan)| ==> r.sent == CallsOf(plan)[..failAt.value + 1]
    ensures board.items <= r.board.items
    ensures Valid(board) ==> Valid(r.board)
    ensures NoErrorNotes(plan) ==> Count(r.board.items, Error) == Count(board.items, Error)
    ensures Silent(plan) ==> r.board == board
  {
    RunFromSends(plan, failAt, [], board);
    RunFromCompletes(plan, failAt, [], board);
    RunFromStopsAtFailure(plan, failAt, [], board);
    RunFromNotes(plan, failAt, [], board);
    assert [] + CallsOf(plan) == CallsOf(plan);
    assert !HasAbort(plan) && failAt.Some? && failAt.value < |CallsOf(plan)| ==>
             RunFrom(plan, failAt, [], board).sent == CallsOf(plan)[..failAt.value + 1] by {
      if !HasAbort(plan) && failAt.Some? && failAt.value < |CallsOf(plan)| {
        RunFromSendsUpToFailure(plan, failAt, [], board);
      }
    }
    RunFrom(plan, failAt, [], board)
  }

  /**
   * The wallet side of one page action: the connected account, whether wagmi has a
   * wallet client, whether the BrowserProvider hands out a signer, and the position
   * of the first sent transaction that fails (`None`: every one confirms).
   */
  datatype Session = Session(account: Option<Address>, walletClient: bool, signerOk: bool, failAt: Option<nat>)

  /**
   * What a page action did: its final page state, the transactions it sent, whether it
   * got past its connection guard and raised the busy flag, whether it reached its last
   * line, and where it navigated.
   */
  datatype Effect<P> = Effect(page: P, sent: seq<Call>, started: bool, settled: bool, navigate: Option<string>)
}

=== FILE: pools.dfy ===
/**
 * The pool list page: one row per pair the factory has created, each with the symbols
 * of its two tokens looked up in the token table, its formatted reserves and its fee,
 * installed only once every row has been read.
 */
module PoolList {
  import opened Wrappers
  import opened Text
  import opened Tokens
  import opened Boundary

  const UNKNOWN_SYMBOL: string := "UNK"

  /** One table row; `key` and `pair` are both the pair's address. */
  datatype PoolRow = PoolRow(key: Address, aSym: string, bSym: string, pair: Address, r0: string, r1: string, fee: string)

  datatype PoolsPage = PoolsPage(pools: seq<PoolRow>, loading: bool)

  /** Before the first load: no rows, spinner on. */
  const INITIAL: PoolsPage := PoolsPage([], true)

  /** Position of the first table entry whose address matches `addr` case-insensitively. */
  function FindIndex(table: seq<TokenMeta>, addr: Address): (r: Option<nat>)
    ensures r.Some? ==> r.value < |table| && SameAddress(table[r.value].address, addr)
    ensures r.Some? ==> forall j | 0 <= j < r.value :: !SameAddress(table[j].address, addr)
    ensures r.None? <==> forall j | 0 <= j < |table| :: !SameAddress(table[j].address, addr)
    decreases |table|
  {
    if |table| == 0 then None
    else if SameAddress(table[0].address, addr) then Some(0)
    else
      match FindIndex(table[1..], addr)
      case None => None
      case Some(k) => Some(k + 1)
  }

  /** `TOKENS.find(...)?.symbol || "UNK"`: a missing entry or an empty symbol shows as "UNK". */
  function SymbolFor(table: seq<TokenMeta>, addr: Address): (sym: string)
    ensures sym != ""
    ensures FindIndex(table, addr).None? ==> sym == UNKNOWN_SYMBOL
    ensures FindIndex(table, addr).Some? && table[FindIndex(table, addr).value].symbol != "" ==>
              sym == table[FindIndex(table, addr).value].symbol
  {
    match FindIndex(table, addr)
    case None => UNKNOWN_SYMBOL
    case Some(i) => if table[i].symbol == "" then UNKNOWN_SYMBOL else table[i].symbol
  }

  /**
   * Against the real table: IUSDC and WMOCA addresses are recognised in any letter case,
   * the native sentinel never names a pair token, and anything else is "UNK".
   */
  lemma TableSymbols(c: Contracts, addr: Address)
    requires !SameAddress(NATIVE, addr)
    ensures SameAddress(c.iusdc, addr) ==> SymbolFor(Table(c), addr) == "IUSDC"
    ensures !SameAddress(c.iusdc, addr) && SameAddress(c.wmoca, addr) ==> SymbolFor(Table(c), addr) == "WMOCA"
    ensures !SameAddress(c.iusdc, addr) && !SameAddress(c.wmoca, addr) ==> SymbolFor(Table(c), addr) == UNKNOWN_SYMBOL
  {
    var t := Table(c);
    assert t[0].address == NATIVE && t[1].address == c.iusdc && t[2].address == c.wmoca;
    if SameAddress(c.iusdc, addr) {
      assert FindIndex(t, addr) == Some(1);
    } else if SameAddress(c.wmoca, addr) {
      assert FindIndex(t, addr) == Some(2);
    } else {
      assert FindIndex(t, addr).None?;
    }
  }

  /** Two decimal digits, with a leading zero below ten. */
  function TwoDigits(n: nat): (s: string)
    requires n < 100
    ensures |s| == 2 && IsDigit(s[0]) && IsDigit(s[1])
    ensures DigitValue(s[0]) * 10 + DigitValue(s[1]) == n
  {
    [DigitChar(n / 10), DigitChar(n % 10)]
  }

  /**
   * `(Number(feeRaw) / 100).toFixed(2) + "%"` for a fee in basis points: the whole part,
   * a point, exactly two decimals and a percent sign.
   */
  function FeeLabel(fee: nat): (s: string)
    ensures |s| >= 5 && s[|s| - 1] == '%' && s[|s| - 4] == '.'
    ensures s[..|s| - 4] == NatToString(fee / 100)
  {
    NatToString(fee / 100) + "." + TwoDigits(fee % 100) + "%"
  }

  /** Reads a fee label back into basis points; `None` for text of any other shape. */
  function ParseFeeLabel(s: string): (r: Option<nat>)
    ensures r.Some? ==> |s| >= 5 && s[|s| - 1] == '%' && s[|s| - 4] == '.'
  {
    if |s| >= 5 && s[|s| - 1] == '%' && s[|s| - 4] == '.'
       && AllDigits(s[..|s| - 4]) && IsDigit(s[|s| - 3]) && IsDigit(s[|s| - 2])
    then Some(ParseNat(s[..|s| - 4]) * 100 + DigitValue(s[|s| - 3]) * 10 + DigitValue(s[|s| - 2]))
    else None
  }

  /** The label loses nothing: reading it back gives the fee in basis points. */
  lemma FeeLabelRoundTrip(fee: nat)
    ensures ParseFeeLabel(FeeLabel(fee)) == Some(fee)
  {
    var s := FeeLabel(fee);
    var w := NatToString(fee / 100);
    var d := TwoDigits(fee % 100);
    assert s == w + "." + d + "%";
    assert s[|s| - 3] == d[0] && s[|s| - 2] == d[1];
    ParseNatToString(fee / 100);
  }

  /** Different fees never share a label, and the usual 0.3% fee reads "0.30%". */
  lemma FeeLabelInjective(f: nat, g: nat)
    ensures FeeLabel(f) == FeeLabel(g) ==> f == g
    ensures FeeLabel(30) == "0.30%" && FeeLabel(5) == "0.05%" && FeeLabel(100) == "1.00%"
  {
    FeeLabelRoundTrip(f);
    FeeLabelRoundTrip(g);
    assert NatToString(0) == "0";
    assert NatToString(1) == "1";
  }

  /**
   * The row for pair index `i`: the pair's address, then its two tokens, reserves and fee
   * read together; `None` as soon as any of the five reads throws.
   */
  function ReadRow(chain: Chain, lib: Ethers, table: seq<TokenMeta>, i: nat): (r: Option<PoolRow>)
    ensures r.Some? <==>
              && chain.allPairs(i).Some?
              && chain.token0(chain.allPairs(i).value).Some?
              && chain.token1(chain.allPairs(i).value).Some?
              && chain.reserves(chain.allPairs(i).value).Some?
              && chain.swapFee(chain.allPairs(i).value).Some?
    ensures r.Some? ==>
              var pair := chain.allPairs(i).value;
              && r.value.key == pair && r.value.pair == pair
              && r.value.aSym == SymbolFor(table, chain.token0(pair).value)
              && r.value.bSym == SymbolFor(table, chain.token1(pair).value)
              && r.value.r0 == lib.formatReserve(chain.reserves(pair).value.r0)
              && r.value.r1 == lib.formatReserve(chain.reserves(pair).value.r1)
              && r.value.fee == FeeLabel(chain.swapFee(pair).value)
  {
    match chain.allPairs(i)
    case None => None
    case Some(pair) =>
      match (chain.token0(pair), chain.token1(pair), chain.reserves(pair), chain.swapFee(pair))
      case (Some(t0), Some(t1), Some(res), Some(fee)) =>
        Some(PoolRow(pair, SymbolFor(table, t0), SymbolFor(table, t1), pair,
                     lib.formatReserve(res.r0), lib.formatReserve(res.r1), FeeLabel(fee)))
      case _ => None
  }

  /**
   * `loadPools`: with every read answered the list becomes one row per pair index, in
   * index order; any read that throws leaves the old list in place. The spinner stops
   * either way.
   */
  method LoadPools(p: PoolsPage, chain: Chain, lib: Ethers, table: seq<TokenMeta>) returns (q: PoolsPage)
    ensures !q.loading
    ensures chain.allPairsLength.None? ==> q.pools == p.pools
    ensures chain.allPairsLength.Some? &&
            (exists i | 0 <= i < chain.allPairsLength.value :: ReadRow(chain, lib, table, i).None?) ==>
              q.pools == p.pools
    ensures chain.allPairsLength.Some? &&
            (forall i | 0 <= i < chain.allPairsLength.value :: ReadRow(chain, lib, table, i).Some?) ==>
              |q.pools| == chain.allPairsLength.value &&
              forall i | 0 <= i < |q.pools| :: ReadRow(chain, lib, table, i) == Some(q.pools[i])
  {
    if chain.allPairsLength.None? {
      return p.(loading := false);
    }
    var n := chain.allPairsLength.value;
    var rows: seq<PoolRow> := [];
    var i := 0;
    while i < n
      invariant 0 <= i <= n
      invariant |rows| == i
      invariant forall k | 0 <= k < i :: ReadRow(chain, lib, table, k) == Some(rows[k])
    {
      var row := ReadRow(chain, lib, table, i);
      if row.None? {
        return p.(loading := false);
      }
      rows := rows + [row.value];
      i := i + 1;
    }
    return PoolsPage(rows, false);
  }
}

=== FILE: swap.dfy ===
/**
 * The swap page: which route a token pair takes (wrap, unwrap or AMM swap), the
 * quote it reads from the pair's reserves, the estimate it shows, token selection,
 * the flip button and the primary button's action.
 */
module Swap {
  import opened Wrappers
  import opened Text
  import opened Tokens
  import opened Boundary
  import opened Notices
  import opened Plans
  import opened AmmMath
  import TokenMetadata

  const CONNECT_MESSAGE: string := "Connect wallet to continue."
  const FAILED_MESSAGE: string := "Transaction failed"
  const WRAP_DONE_MESSAGE: string := "Transaction successful"
  const SWAP_DONE_MESSAGE: string := "Swap Executed"
  const NOT_FOUND_MESSAGE: string := "Invalid address or token not found."

  /** Which token button opened the selector. */
  datatype Side = In | Out

  datatype SwapPage = SwapPage(
    tokenIn: TokenMeta,
    tokenOut: TokenMeta,
    amountIn: string,
    estimateOut: string,
    slippageBps: int,
    searchResult: Option<TokenMeta>,
    selecting: Option<Side>,
    busy: bool,
    needsApproval: bool,
    routerReady: bool,
    board: Board)

  /** The page as first rendered: MOCA to IUSDC, empty fields, 0.5% slippage, no router yet. */
  function Initial(c: Contracts): (p: SwapPage)
    ensures p.tokenIn == Table(c)[0] && p.tokenOut == Table(c)[1]
    ensures p.amountIn == "" && p.estimateOut == "" && p.slippageBps == DEFAULT_SLIPPAGE_BPS
    ensures !p.busy && !p.needsApproval && !p.routerReady && p.board == EMPTY
    ensures p.searchResult.None? && p.selecting.None?
  {
    SwapPage(Table(c)[0], Table(c)[1], "", "", DEFAULT_SLIPPAGE_BPS, None, None, false, false, false, EMPTY)
  }

  /** `isWrap`: MOCA in, WMOCA out, decided by symbol alone. */
  function IsWrap(tokenIn: TokenMeta, tokenOut: TokenMeta): (b: bool)
    ensures b ==> tokenIn.symbol != tokenOut.symbol
  {
    assert "MOCA" != "WMOCA" by { assert |"MOCA"| != |"WMOCA"|; }
    tokenIn.symbol == "MOCA" && tokenOut.symbol == "WMOCA"
  }

  /** `isUnwrap`: WMOCA in, MOCA out. */
  function IsUnwrap(tokenIn: TokenMeta, tokenOut: TokenMeta): (b: bool)
    ensures b ==> tokenIn.symbol != tokenOut.symbol && !IsWrap(tokenIn, tokenOut)
  {
    assert "MOCA" != "WMOCA" by { assert |"MOCA"| != |"WMOCA"|; }
    tokenIn.symbol == "WMOCA" && tokenOut.symbol == "MOCA"
  }

  /** Every other pair goes through the pool, a pair of one symbol on both sides included. */
  function IsAmmSwap(tokenIn: TokenMeta, tokenOut: TokenMeta): (b: bool)
    ensures tokenIn.symbol == tokenOut.symbol ==> b
  {
    !IsWrap(tokenIn, tokenOut) && !IsUnwrap(tokenIn, tokenOut)
  }

  /** Every pair takes exactly one route, and reversing a wrap gives an unwrap. */
  lemma RouteIsExclusive(tokenIn: TokenMeta, tokenOut: TokenMeta)
    ensures (if IsWrap(tokenIn, tokenOut) then 1 else 0) + (if IsUnwrap(tokenIn, tokenOut) then 1 else 0)
              + (if IsAmmSwap(tokenIn, tokenOut) then 1 else 0) == 1
    ensures IsWrap(tokenIn, tokenOut) <==> IsUnwrap(tokenOut, tokenIn)
  {
  }

  /** The default pair, MOCA and IUSDC, has distinct symbols and goes through the pool. */
  lemma DefaultsAreAmmSwap(c: Contracts)
    ensures Initial(c).tokenIn.symbol != Initial(c).tokenOut.symbol
    ensures IsAmmSwap(Initial(c).tokenIn, Initial(c).tokenOut)
    ensures IsWrap(Table(c)[0], Table(c)[2]) && IsUnwrap(Table(c)[2], Table(c)[0])
  {
  }

  /** `(resIn, resOut)`: the pair's reserves in the order of the trade. */
  function Orient(tokenIn: Address, token0: Address, res: Reserves): (io: (nat, nat))
    ensures SameAddress(tokenIn, token0) ==> io == (res.r0, res.r1)
    ensures !SameAddress(tokenIn, token0) ==> io == (res.r1, res.r0)
  {
    if SameAddress(tokenIn, token0) then (res.r0, res.r1) else (res.r1, res.r0)
  }

  /** The factory lookup the quote makes: both sides resolved, native to WMOCA. */
  function PairQuery(p: SwapPage, c: Contracts): (q: (Address, Address))
    ensures p.tokenIn.isNative ==> q.0 == c.wmoca
    ensures p.tokenOut.isNative ==> q.1 == c.wmoca
    ensures !p.tokenIn.isNative ==> q.0 == p.tokenIn.address
    ensures !p.tokenOut.isNative ==> q.1 == p.tokenOut.address
  {
    (Resolve(p.tokenIn, c), Resolve(p.tokenOut, c))
  }

  /** `getAmountOut`: the AMM quote for the entered amount, `None` wherever the page returns null. */
  function GetAmountOut(p: SwapPage, c: Contracts, chain: Chain, lib: Ethers): (r: Option<Quote>)
    ensures !IsAmmSwap(p.tokenIn, p.tokenOut) ==> r.None?
    ensures p.amountIn == "" || !lib.isNumeric(p.amountIn) ==> r.None?
    ensures chain.getPair(PairQuery(p, c).0, PairQuery(p, c).1) in {None, Some(ZERO_ADDRESS)} ==> r.None?
    ensures lib.parseEther(p.amountIn).None? ==> r.None?
    ensures r.Some? ==>
              var pair := chain.getPair(PairQuery(p, c).0, PairQuery(p, c).1);
              pair.Some? && chain.reserves(pair.value).Some? && chain.token0(pair.value).Some?
  {
    if !IsAmmSwap(p.tokenIn, p.tokenOut) || p.amountIn == "" || !lib.isNumeric(p.amountIn) then None
    else
      var (tIn, tOut) := PairQuery(p, c);
      match chain.getPair(tIn, tOut)
      case None => None
      case Some(pair) =>
        if pair == ZERO_ADDRESS then None
        else
          match (chain.reserves(pair), chain.token0(pair), lib.parseEther(p.amountIn))
          case (Some(res), Some(t0), Some(a)) =>
            var (resIn, resOut) := Orient(tIn, t0, res);
            SwapQuote(a, resIn, resOut, p.slippageBps)
          case _ => None
  }

  /**
   * When every read succeeds the quote is the constant-product quote on the reserves
   * oriented by a case-insensitive match of the resolved input token against `token0`.
   */
  lemma QuoteUsesOrientedReserves(p: SwapPage, c: Contracts, chain: Chain, lib: Ethers, pair: Address, res: Reserves, t0: Address, a: int)
    requires IsAmmSwap(p.tokenIn, p.tokenOut) && p.amountIn != "" && lib.isNumeric(p.amountIn)
    requires chain.getPair(PairQuery(p, c).0, PairQuery(p, c).1) == Some(pair) && pair != ZERO_ADDRESS
    requires chain.reserves(pair) == Some(res) && chain.token0(pair) == Some(t0)
    requires lib.parseEther(p.amountIn) == Some(a)
    ensures SameAddress(PairQuery(p, c).0, t0) ==> GetAmountOut(p, c, chain, lib) == SwapQuote(a, res.r0, res.r1, p.slippageBps)
    ensures !SameAddress(PairQuery(p, c).0, t0) ==> GetAmountOut(p, c, chain, lib) == SwapQuote(a, res.r1, res.r0, p.slippageBps)
  {
  }

  /** `estimateOut` as the estimate effect sets it. */
  function Estimate(p: SwapPage, c: Contracts, chain: Chain, lib: Ethers): (e: string)
    ensures p.amountIn == "" ==> e == ""
    ensures p.amountIn != "" && !IsAmmSwap(p.tokenIn, p.tokenOut) ==> e == p.amountIn
    ensures IsAmmSwap(p.tokenIn, p.tokenOut) && GetAmountOut(p, c, chain, lib).None? ==> e == ""
    ensures IsAmmSwap(p.tokenIn, p.tokenOut) && GetAmountOut(p, c, chain, lib).Some? ==>
              e == lib.formatEstimate(GetAmountOut(p, c, chain, lib).value.amountOut)
  {
    if p.amountIn == "" then ""
    else if IsWrap(p.tokenIn, p.tokenOut) || IsUnwrap(p.tokenIn, p.tokenOut) then p.amountIn
    else match GetAmountOut(p, c, chain, lib)
      case None => ""
      case Some(q) => lib.formatEstimate(q.amountOut)
  }

  /** Wrapping and unwrapping are quoted 1:1 without any read: the reserves play no part. */
  lemma WrapEstimateIgnoresChain(p: SwapPage, c: Contracts, chain1: Chain, chain2: Chain, lib: Ethers)
    requires !IsAmmSwap(p.tokenIn, p.tokenOut)
    ensures Estimate(p, c, chain1, lib) == Estimate(p, c, chain2, lib) == p.amountIn
  {
  }

  predicate Distinct(p: SwapPage) {
    p.tokenIn.symbol != p.tokenOut.symbol
  }

  /**
   * `handleSelectToken`: the chosen token goes to the side being selected; if the other
   * side holds a token with the same symbol, that side takes the replaced token.
   */
  function SelectToken(p: SwapPage, meta: TokenMeta): (q: SwapPage)
    ensures q.amountIn == "" && q.estimateOut == "" && q.selecting.None?
    ensures p.selecting == Some(In) ==> q.tokenIn == meta
    ensures p.selecting == Some(In) && p.tokenOut.symbol == meta.symbol ==> q.tokenOut == p.tokenIn
    ensures p.selecting == Some(In) && p.tokenOut.symbol != meta.symbol ==> q.tokenOut == p.tokenOut
    ensures p.selecting != Some(In) ==> q.tokenOut == meta
    ensures p.selecting != Some(In) && p.tokenIn.symbol == meta.symbol ==> q.tokenIn == p.tokenOut
    ensures p.selecting != Some(In) && p.tokenIn.symbol != meta.symbol ==> q.tokenIn == p.tokenIn
    ensures Distinct(p) ==> Distinct(q)
    ensures q.(tokenIn := p.tokenIn, tokenOut := p.tokenOut, amountIn := p.amountIn,
               estimateOut := p.estimateOut, selecting := p.selecting) == p
  {
    var (tIn, tOut) :=
      if p.selecting == Some(In) then
        (meta, if p.tokenOut.symbol == meta.symbol then p.tokenIn else p.tokenOut)
      else
        (if p.tokenIn.symbol == meta.symbol then p.tokenOut else p.tokenIn, meta);
    p.(tokenIn := tIn, tokenOut := tOut, amountIn := "", estimateOut := "", selecting := None)
  }

  /** The arrow button between the two fields. */
  function Flip(p: SwapPage): (q: SwapPage)
    ensures q.tokenIn == p.tokenOut && q.tokenOut == p.tokenIn
    ensures q.(tokenIn := p.tokenIn, tokenOut := p.tokenOut) == p
  {
    p.(tokenIn := p.tokenOut, tokenOut := p.tokenIn)
  }

  /** Flipping twice restores the page, keeps the symbols distinct, and exchanges wrap and unwrap. */
  lemma FlipProperties(p: SwapPage)
    ensures Flip(Flip(p)) == p
    ensures Distinct(p) <==> Distinct(Flip(p))
    ensures IsWrap(p.tokenIn, p.tokenOut) <==> IsUnwrap(Flip(p).tokenIn, Flip(p).tokenOut)
  {
  }

  /** `handleSearchToken`, given what `fetchTokenMetadata` returned. */
  function SearchToken(p: SwapPage, found: Option<TokenMetadata.Metadata>): (q: SwapPage)
    ensures found.Some? ==> q.searchResult == Some(TokenMetadata.AsToken(found.value)) && q.board == p.board
    ensures found.None? ==>
              q.searchResult == p.searchResult &&
              q.board.items == p.board.items + [Note(p.board.nextId, Error, NOT_FOUND_MESSAGE)]
    ensures q.(searchResult := p.searchResult, board := p.board) == p
  {
    match found
    case Some(m) => p.(searchResult := Some(TokenMetadata.AsToken(m)))
    case None => p.(board := Push(p.board, Error, NOT_FOUND_MESSAGE))
  }

  /** The setup effect: a router exists once a wallet client has yielded a signer; it is never cleared. */
  function SetupRouter(p: SwapPage, walletClient: bool, signerOk: bool): (q: SwapPage)
    ensures q.routerReady <==> p.routerReady || (walletClient && signerOk)
    ensures q.(routerReady := p.routerReady) == p
  {
    if walletClient && signerOk then p.(routerReady := true) else p
  }

  /**
   * The lines `onPrimaryAction` runs after its guard, in order. `signer` says whether
   * `walletClient!.transport` and `getSigner()` both succeed: either throwing aborts.
   */
  function PrimaryPlan(p: SwapPage, c: Contracts, chain: Chain, lib: Ethers, signer: bool): (plan: seq<Step>)
    ensures NoErrorNotes(plan)
    ensures |CallsOf(plan)| <= 1
    ensures IsWrap(p.tokenIn, p.tokenOut) ==>
              forall k | 0 <= k < |CallsOf(plan)| :: CallsOf(plan)[k] == Deposit(lib.parseEther(p.amountIn).GetOr(0))
    ensures IsUnwrap(p.tokenIn, p.tokenOut) ==>
              forall k | 0 <= k < |CallsOf(plan)| :: CallsOf(plan)[k] == Withdraw(lib.parseEther(p.amountIn).GetOr(0))
    ensures IsAmmSwap(p.tokenIn, p.tokenOut) ==>
              forall k | 0 <= k < |CallsOf(plan)| ::
                p.needsApproval && CallsOf(plan)[k] == Approve(p.tokenIn.address, c.router, lib.parseEther(p.amountIn).GetOr(0))
    ensures IsAmmSwap(p.tokenIn, p.tokenOut) && GetAmountOut(p, c, chain, lib).None? ==> HasAbort(plan)
    ensures IsAmmSwap(p.tokenIn, p.tokenOut) && p.needsApproval ==> Silent(plan)
    ensures !signer && (!IsAmmSwap(p.tokenIn, p.tokenOut) || p.needsApproval) ==> HasAbort(plan) && CallsOf(plan) == []
  {
    assert IsUnwrap(p.tokenIn, p.tokenOut) ==> !IsWrap(p.tokenIn, p.tokenOut) by {
      assert "WMOCA" != "MOCA" by { assert |"WMOCA"| != |"MOCA"|; }
    }
    match lib.parseEther(p.amountIn)
    case None => [Abort]
    case Some(wei) =>
      if !IsAmmSwap(p.tokenIn, p.tokenOut) then
        if !signer then [Abort]
        else [Send(if IsWrap(p.tokenIn, p.tokenOut) then Deposit(wei) else Withdraw(wei)),
              Notify(Success, WRAP_DONE_MESSAGE)]
      else if GetAmountOut(p, c, chain, lib).None? then [Abort]
      else if p.needsApproval then
        (if !signer then [Abort] else [Send(Approve(p.tokenIn.address, c.router, wei))])
      else [Notify(Success, SWAP_DONE_MESSAGE)]
  }

  /**
   * Whether the action can get a signer. The router the guard checks outlives the wallet
   * client, so `walletClient!` can still throw after the guard.
   */
  predicate SignerOf(s: Session) {
    s.walletClient && s.signerOk
  }

  /** `onPrimaryAction`: the guard, the busy flag, and one error note for any failure. */
  function OnPrimaryAction(p: SwapPage, c: Contracts, chain: Chain, lib: Ethers, s: Session): (e: Effect<SwapPage>)
    ensures s.account.None? || !p.routerReady ==>
              !e.started && e.sent == [] && e.page == p.(board := e.page.board) &&
              e.page.board.items == p.board.items + [Note(p.board.nextId, Info, CONNECT_MESSAGE)]
    ensures s.account.Some? && p.routerReady ==>
              e.started && e.page == p.(busy := false, needsApproval := e.page.needsApproval, board := e.page.board)
    ensures e.started ==> p.board.items <= e.page.board.items
    ensures Valid(p.board) ==> Valid(e.page.board)
    ensures e.page.tokenIn == p.tokenIn && e.page.tokenOut == p.tokenOut && e.page.amountIn == p.amountIn
    ensures e.navigate.None?
  {
    if s.account.None? || !p.routerReady then
      Effect(p.(board := Push(p.board, Info, CONNECT_MESSAGE)), [], false, false, None)
    else
      var run := RunPlan(PrimaryPlan(p, c, chain, lib, SignerOf(s)), s.failAt, p.board);
      var board := if run.completed then run.board else Push(run.board, Error, FAILED_MESSAGE);
      var approved := run.completed && IsAmmSwap(p.tokenIn, p.tokenOut) && p.needsApproval;
      Effect(p.(busy := false, needsApproval := p.needsApproval && !approved, board := board),
             run.sent, true, run.completed, None)
  }

  /**
   * Any failure after the guard, the "No Liquidity" throw included, leaves exactly one
   * new error note, "Transaction failed", last on the board; a success adds no error note.
   */
  lemma PrimaryActionNotes(p: SwapPage, c: Contracts, chain: Chain, lib: Ethers, s: Session)
    ensures var e := OnPrimaryAction(p, c, chain, lib, s);
            && (e.started && !e.settled ==>
                  && Count(e.page.board.items, Error) == Count(p.board.items, Error) + 1
                  && e.page.board.items[|e.page.board.items| - 1].kind == Error
                  && e.page.board.items[|e.page.board.items| - 1].message == FAILED_MESSAGE)
            && (e.settled ==> Count(e.page.board.items, Error) == Count(p.board.items, Error))
  {
    if s.account.Some? && p.routerReady {
      var run := RunPlan(PrimaryPlan(p, c, chain, lib, SignerOf(s)), s.failAt, p.board);
      PushCount(run.board, Error, FAILED_MESSAGE, Error);
    }
  }

  /**
   * What the primary action sends: the AMM route never sends a swap and, without a
   * pending approval, nothing at all; a missing quote ("No Liquidity") sends nothing and
   * fails; the approval route approves exactly the entered amount to the router.
   */
  lemma PrimaryActionSends(p: SwapPage, c: Contracts, chain: Chain, lib: Ethers, s: Session)
    ensures var e := OnPrimaryAction(p, c, chain, lib, s);
            |e.sent| <= 1 &&
            (IsAmmSwap(p.tokenIn, p.tokenOut) && !p.needsApproval ==> e.sent == []) &&
            (IsAmmSwap(p.tokenIn, p.tokenOut) && GetAmountOut(p, c, chain, lib).None? ==> e.sent == [] && !e.settled) &&
            (IsAmmSwap(p.tokenIn, p.tokenOut) && p.needsApproval && |e.sent| == 1 ==>
               e.sent[0] == Approve(p.tokenIn.address, c.router, lib.parseEther(p.amountIn).GetOr(0))) &&
            (IsWrap(p.tokenIn, p.tokenOut) && |e.sent| == 1 ==> e.sent[0] == Deposit(lib.parseEther(p.amountIn).GetOr(0))) &&
            (IsUnwrap(p.tokenIn, p.tokenOut) && |e.sent| == 1 ==> e.sent[0] == Withdraw(lib.parseEther(p.amountIn).GetOr(0)))
  {
    var e := OnPrimaryAction(p, c, chain, lib, s);
    if s.account.Some? && p.routerReady {
      var plan := PrimaryPlan(p, c, chain, lib, SignerOf(s));
      assert e.sent == RunPlan(plan, s.failAt, p.board).sent;
      assert e.sent <= CallsOf(plan);
      if |e.sent| == 1 {
        assert e.sent[0] == CallsOf(plan)[0];
      }
    }
  }

  /**
   * A successful approval pushes no note and clears `needsApproval`; nothing in the page
   * ever sets it, so from the initial page the approval route is unreachable.
   */
  lemma ApprovalFlag(p: SwapPage, c: Contracts, chain: Chain, lib: Ethers, s: Session)
    ensures var e := OnPrimaryAction(p, c, chain, lib, s);
            (!p.needsApproval ==> !e.page.needsApproval) &&
            (IsAmmSwap(p.tokenIn, p.tokenOut) && p.needsApproval && e.settled ==>
               e.page.board == p.board && !e.page.needsApproval)
  {
    if s.account.Some? && p.routerReady {
      var plan := PrimaryPlan(p, c, chain, lib, SignerOf(s));
      assert OnPrimaryAction(p, c, chain, lib, s).page.board == (
        var run := RunPlan(plan, s.failAt, p.board);
        if run.completed then run.board else Push(run.board, Error, FAILED_MESSAGE));
    }
  }

  /**
   * The AMM route without a pending approval, once the quote exists, sends nothing,
   * settles, and pushes only "Swap Executed": the swap itself is never sent.
   */
  lemma SwapExecutedNote(p: SwapPage, c: Contracts, chain: Chain, lib: Ethers, s: Session)
    requires s.account.Some? && p.routerReady
    requires IsAmmSwap(p.tokenIn, p.tokenOut) && !p.needsApproval
    requires GetAmountOut(p, c, chain, lib).Some?
    ensures var e := OnPrimaryAction(p, c, chain, lib, s);
            && e.settled && e.sent == []
            && e.page.board.items == p.board.items + [Note(p.board.nextId, Success, SWAP_DONE_MESSAGE)]
  {
    var plan := PrimaryPlan(p, c, chain, lib, SignerOf(s));
    assert plan == [Notify(Success, SWAP_DONE_MESSAGE)];
    var pushed := Push(p.board, Success, SWAP_DONE_MESSAGE);
    assert RunFrom(plan[1..], s.failAt, [], pushed) == Run([], pushed, true);
    assert RunPlan(plan, s.failAt, p.board) == Run([], pushed, true);
  }

  /**
   * A session that cannot produce a signer, because the wallet client is gone though the
   * router remains or because `getSigner()` rejects, cannot wrap, unwrap or approve: the
   * action throws before anything is sent, and the one note added is "Transaction failed".
   */
  lemma NoSignerFails(p: SwapPage, c: Contracts, chain: Chain, lib: Ethers, s: Session)
    requires s.account.Some? && p.routerReady && !SignerOf(s)
    requires !IsAmmSwap(p.tokenIn, p.tokenOut) || p.needsApproval
    ensures var e := OnPrimaryAction(p, c, chain, lib, s);
            && e.started && !e.settled && e.sent == []
            && e.page.board.items == p.board.items + [Note(p.board.nextId, Error, FAILED_MESSAGE)]
  {
    var plan := PrimaryPlan(p, c, chain, lib, SignerOf(s));
    assert plan == [Abort];
  }

  /**
   * A wrap or unwrap with a signer, a parsed amount and a confirming transaction sends
   * exactly one deposit or withdrawal of that amount and pushes "Transaction successful".
   */
  lemma WrapSends(p: SwapPage, c: Contracts, chain: Chain, lib: Ethers, s: Session, w: int)
    requires s.account.Some? && p.routerReady && SignerOf(s) && s.failAt.None?
    requires !IsAmmSwap(p.tokenIn, p.tokenOut) && lib.parseEther(p.amountIn) == Some(w)
    ensures var e := OnPrimaryAction(p, c, chain, lib, s);
            && e.settled
            && e.sent == [if IsWrap(p.tokenIn, p.tokenOut) then Deposit(w) else Withdraw(w)]
            && e.page.board.items == p.board.items + [Note(p.board.nextId, Success, WRAP_DONE_MESSAGE)]
  {
    var call := if IsWrap(p.tokenIn, p.tokenOut) then Deposit(w) else Withdraw(w);
    var plan := PrimaryPlan(p, c, chain, lib, SignerOf(s));
    assert plan == [Send(call), Notify(Success, WRAP_DONE_MESSAGE)];
    var pushed := Push(p.board, Success, WRAP_DONE_MESSAGE);
    assert RunFrom(plan[1..], s.failAt, [call], p.board) == Run([call], pushed, true) by {
      assert plan[1..][1..] == [];
    }
    assert RunFrom(plan, s.failAt, [], p.board) == RunFrom(plan[1..], s.failAt, [call], p.board) by {
      assert [] + [call] == [call];
    }
    assert RunPlan(plan, s.failAt, p.board) == Run([call], pushed, true);
  }

  /**
   * A pending approval with a quote, a signer and a confirming transaction approves
   * exactly the entered amount to the router, pushes no note and clears the flag.
   */
  lemma ApprovalSends(p: SwapPage, c: Contracts, chain: Chain, lib: Ethers, s: Session, w: int)
    requires s.account.Some? && p.routerReady && SignerOf(s) && s.failAt.None?
    requires IsAmmSwap(p.tokenIn, p.tokenOut) && p.needsApproval
    requires GetAmountOut(p, c, chain, lib).Some? && lib.parseEther(p.amountIn) == Some(w)
    ensures var e := OnPrimaryAction(p, c, chain, lib, s);
            && e.settled
            && e.sent == [Approve(p.tokenIn.address, c.router, w)]
            && e.page.board == p.board && !e.page.needsApproval
  {
    var call := Approve(p.tokenIn.address, c.router, w);
    var plan := PrimaryPlan(p, c, chain, lib, SignerOf(s));
    assert plan == [Send(call)];
    assert RunFrom(plan[1..], s.failAt, [call], p.board) == Run([call], p.board, true);
    assert RunPlan(plan, s.failAt, p.board) == Run([call], p.board, true);
  }
}

=== FILE: text.dfy ===
/** String helpers: ASCII lower-casing for address comparison and decimal digits. */
module Text {

  /** Lower-cases one ASCII letter; every other character is unchanged. */
  function LowerChar(ch: char): char {
    if 'A' <= ch <= 'Z' then (ch as int - 'A' as int + 'a' as int) as char else ch
  }

  /** `s.toLowerCase()` for the ASCII range (addresses are hexadecimal). */
  function Lower(s: string): (r: string)
    ensures |r| == |s|
    ensures forall i | 0 <= i < |s| :: r[i] == LowerChar(s[i])
  {
    if |s| == 0 then "" else [LowerChar(s[0])] + Lower(s[1..])
  }

  /** Case-insensitive address equality: `a.toLowerCase() === b.toLowerCase()`. */
  predicate SameAddress(a: string, b: string) {
    Lower(a) == Lower(b)
  }

  predicate IsDigit(ch: char) {
    '0' <= ch <= '9'
  }

  predicate AllDigits(s: string) {
    forall i | 0 <= i < |s| :: IsDigit(s[i])
  }

  function DigitChar(d: nat): (ch: char)
    requires d < 10
    ensures IsDigit(ch)
  {
    ('0' as int + d) as char
  }

  function DigitValue(ch: char): (d: nat)
    requires IsDigit(ch)
    ensures d < 10
  {
    ch as int - '0' as int
  }

  /** Decimal rendering of a natural number, most significant digit first, no leading zeros. */
  function NatToString(n: nat): (s: string)
    ensures |s| >= 1
    ensures AllDigits(s)
    ensures n >= 10 ==> s[0] != '0'
    decreases n
  {
    if n < 10 then [DigitChar(n)] else NatToString(n / 10) + [DigitChar(n % 10)]
  }

  /** Value of a string of decimal digits; the empty string is 0. */
  function ParseNat(s: string): nat
    requires AllDigits(s)
  {
    if |s| == 0 then 0 else ParseNat(s[..|s| - 1]) * 10 + DigitValue(s[|s| - 1])
  }

  /** Parsing the decimal rendering gives the number back. */
  lemma {:induction false} ParseNatToString(n: nat)
    ensures ParseNat(NatToString(n)) == n
    decreases n
  {
    var s := NatToString(n);
    if n < 10 {
      assert s[..|s| - 1] == "";
    } else {
      ParseNatToString(n / 10);
      assert s[..|s| - 1] == NatToString(n / 10);
      assert DigitValue(s[|s| - 1]) == n % 10;
    }
  }
}

=== FILE: token_metadata.dfy ===
/**
 * `fetchTokenMetadata`: validate a pasted address, read the ERC-20 name, symbol and
 * decimals, and fall back to defaults for every read that fails or comes back empty.
 */
module TokenMetadata {
  import opened Wrappers
  import opened Tokens
  import opened Boundary

  const UNKNOWN_NAME: string := "Unknown"
  const UNKNOWN_SYMBOL: string := "???"
  const DEFAULT_DECIMALS: int := 18

  /** What a token search returns. */
  datatype Metadata = Metadata(address: Address, name: string, symbol: string, decimals: int, isNative: bool)

  /** Outcomes of the three view calls on the token contract; `None` is a read that threw. */
  datatype TokenReads = TokenReads(name: Option<string>, symbol: Option<string>, decimals: Option<int>)

  /**
   * One text read inside its own try/catch: a bytes-like result is decoded as a
   * bytes32 string, and a read or a decode that throws gives the fallback.
   */
  function ReadText(read: Option<string>, fallback: string, lib: Ethers): (t: string)
    ensures read.None? ==> t == fallback
    ensures read.Some? && !lib.isBytesLike(read.value) ==> t == read.value
    ensures read.Some? && lib.isBytesLike(read.value) ==> t == lib.decodeBytes32(read.value).GetOr(fallback)
  {
    match read
    case None => fallback
    case Some(v) =>
      if lib.isBytesLike(v) then
        (match lib.decodeBytes32(v) case Some(d) => d case None => fallback)
      else v
  }

  /** `value || fallback` on strings: the empty string is falsy. */
  function OrDefault(value: string, fallback: string): (t: string)
    ensures t == value || t == fallback
    ensures fallback != "" ==> t != ""
    ensures value != "" ==> t == value
  {
    if value == "" then fallback else value
  }

  /** The metadata of the token at `query`, or `None` for anything that is not an address. */
  function FetchTokenMetadata(query: string, views: TokenReads, lib: Ethers): (r: Option<Metadata>)
    ensures !lib.isAddress(query) ==> r.None?
    ensures r.Some? <==> lib.isAddress(query) && lib.getAddress(query).Some?
    ensures r.Some? ==> Some(r.value.address) == lib.getAddress(query) && !r.value.isNative
    ensures r.Some? ==> r.value.name != "" && r.value.symbol != ""
    ensures r.Some? && views.name.None? ==> r.value.name == UNKNOWN_NAME
    ensures r.Some? && views.symbol.None? ==> r.value.symbol == UNKNOWN_SYMBOL
    ensures r.Some? && views.name == Some("") && !lib.isBytesLike("") ==> r.value.name == UNKNOWN_NAME
    ensures r.Some? && views.symbol == Some("") && !lib.isBytesLike("") ==> r.value.symbol == UNKNOWN_SYMBOL
    ensures r.Some? && views.name.Some? && !lib.isBytesLike(views.name.value) && views.name.value != "" ==>
              r.value.name == views.name.value
    ensures r.Some? && views.symbol.Some? && !lib.isBytesLike(views.symbol.value) && views.symbol.value != "" ==>
              r.value.symbol == views.symbol.value
    ensures r.Some? ==> r.value.decimals == (if views.decimals.Some? then views.decimals.value else DEFAULT_DECIMALS)
  {
    if !lib.isAddress(query) then None
    else
      match lib.getAddress(query)
      case None => None
      case Some(address) =>
        var name := ReadText(views.name, UNKNOWN_NAME, lib);
        var symbol := ReadText(views.symbol, UNKNOWN_SYMBOL, lib);
        var decimals := views.decimals.GetOr(DEFAULT_DECIMALS);
        Some(Metadata(address, OrDefault(name, UNKNOWN_NAME), OrDefault(symbol, UNKNOWN_SYMBOL), decimals, false))
  }

  /** A query that is not an address is rejected before any read: the read outcomes cannot change the answer. */
  lemma NonAddressIgnoresReads(query: string, views1: TokenReads, views2: TokenReads, lib: Ethers)
    requires !lib.isAddress(query)
    ensures FetchTokenMetadata(query, views1, lib) == FetchTokenMetadata(query, views2, lib) == None
  {
  }

  /** A name or symbol that reads as the empty string falls back to its default, as a failed read does. */
  lemma EmptyTextFallsBack(query: string, views: TokenReads, lib: Ethers)
    requires lib.isAddress(query) && lib.getAddress(query).Some? && !lib.isBytesLike("")
    ensures views.name == Some("") ==> FetchTokenMetadata(query, views, lib).value.name == UNKNOWN_NAME
    ensures views.symbol == Some("") ==> FetchTokenMetadata(query, views, lib).value.symbol == UNKNOWN_SYMBOL
    ensures FetchTokenMetadata(query, views.(name := None), lib).value.name == UNKNOWN_NAME
    ensures FetchTokenMetadata(query, views.(symbol := None), lib).value.symbol == UNKNOWN_SYMBOL
  {
  }

  /** A bytes32 symbol is decoded; a decode that yields nothing or throws gives the default. */
  lemma Bytes32SymbolDecoded(query: string, views: TokenReads, lib: Ethers)
    requires lib.isAddress(query) && lib.getAddress(query).Some?
    requires views.symbol.Some? && lib.isBytesLike(views.symbol.value)
    ensures var sym := FetchTokenMetadata(query, views, lib).value.symbol;
            var decoded := lib.decodeBytes32(views.symbol.value);
            (decoded.Some? && decoded.value != "" ==> sym == decoded.value) &&
            (decoded.None? || decoded.value == "" ==> sym == UNKNOWN_SYMBOL)
  {
  }

  /** A search result as the token selector shows it. */
  function AsToken(m: Metadata): (t: TokenMeta)
    ensures t.address == m.address && t.symbol == m.symbol && t.name == m.name && t.isNative == m.isNative
  {
    TokenMeta(m.symbol, m.name, m.address, m.isNative)
  }
}

=== FILE: tokens.dfy ===
/** The token list every page starts from, and how the native token is mapped to its wrapped form. */
module Tokens {
  import opened Text

  type Address = string

  /** The sentinel address the table gives the native token. */
  const NATIVE: Address := "native"

  /** Deployed contract addresses. Their values live in a configuration file outside this model. */
  datatype Contracts = Contracts(factory: Address, router: Address, wmoca: Address, iusdc: Address)

  /** A selectable token. `isNative` is the optional flag of the source, absent meaning false. */
  datatype TokenMeta = TokenMeta(symbol: string, name: string, address: Address, isNative: bool)

  /** The `TOKENS` table: native MOCA, IUSDC and wrapped MOCA, in that order. */
  function Table(c: Contracts): (t: seq<TokenMeta>)
    ensures |t| == 3
    ensures t[0].symbol == "MOCA" && t[1].symbol == "IUSDC" && t[2].symbol == "WMOCA"
    ensures t[0].isNative && t[0].address == NATIVE
    ensures forall i | 1 <= i < |t| :: !t[i].isNative
    ensures t[1].address == c.iusdc && t[2].address == c.wmoca
  {
    [ TokenMeta("MOCA", "Native MOCA", NATIVE, true),
      TokenMeta("IUSDC", "IUSDC", c.iusdc, false),
      TokenMeta("WMOCA", "Wrapped MOCA", c.wmoca, false) ]
  }

  /** The address used for any factory, router or token call: native resolves to WMOCA. */
  function Resolve(t: TokenMeta, c: Contracts): (a: Address)
    ensures t.isNative ==> a == c.wmoca
    ensures !t.isNative ==> a == t.address
  {
    if t.isNative then c.wmoca else t.address
  }

  /** No two table entries share a symbol, the key that token selection relies on. */
  lemma TableSymbolsDistinct(c: Contracts)
    ensures forall i, j | 0 <= i < j < |Table(c)| :: Table(c)[i].symbol != Table(c)[j].symbol
  {
  }

  /** The only native entry is the first, and resolving it gives the address of the WMOCA entry. */
  lemma NativeResolvesToWrappedEntry(c: Contracts)
    ensures forall i | 0 <= i < |Table(c)| :: Table(c)[i].isNative <==> i == 0
    ensures Resolve(Table(c)[0], c) == Table(c)[2].address
    ensures forall i | 1 <= i < |Table(c)| :: Resolve(Table(c)[i], c) == Table(c)[i].address
  {
  }
}

=== FILE: wrappers.dfy ===
/** Optional values. A chain read or a foreign helper that throws is `None`. */
module Wrappers {

  datatype Option<+T> = None | Some(value: T) {

    /** The value inside `Some`, or `default` for `None`. */
    function GetOr(default: T): T {
      match this
      case Some(v) => v
      case None => default
    }
  }
}
